=== FILE: README.md ===
# ChestPal core in Dafny

ChestPal is a Minecraft server plugin. Players use special hoes to register chests.
A **sender** chest is emptied into the **receiver** chests registered for each item's
material whenever a player closes it. A **receiver** chest is marked by an item frame
naming its material, and it throws back anything else a player puts into it.

This project models that core:

- `Domain` (`domain.dfy`): locations, materials, item stacks, inventory contents, and
  the read-only world views the plugin consults.
  - `World.resolve` says what container stands at a location.
  - `World.findItemFrame` is the lookup for the item frame next to a chest.
- `Persistence` (`persistence.dfy`): the location registry (`LocationCache`).
  - It keeps receiver sets per material and the sender set.
  - It keeps a flattened receiver set that is derived from the receiver sets.
  - Its operations: loading, membership queries, adding, removing and export.
- `Extensions` (`extensions.dfy`): the helpers.
  - Splitting a quantity into stacks.
  - Counting free space.
  - Picking out misplaced items.
  - The pretty form of an enum constant name.
- `HoeTypes` (`hoe_type.dfy`): telling which tool an item is, and what using each tool
  on a block does to the registry.
- `ChestListener` (`chest_listener.dfy`): the close-inventory handler.
  - The sender pass: each slot is offered to its receivers in turn.
  - Pruning: receivers found to be gone are unregistered.
  - The receiver pass: misplaced stacks are evicted.

Host calls are parameters. The receivers' `addItem` is a function
`deposit: (W, Location, ItemStack) -> (W, int)`. It takes an abstract state `W` of the
receivers' inventories and returns the new state and the units left over. The
player's `addItem` is `give: (P, ItemStack) -> (P, seq<ItemStack>)`. The properties
that need the host's `addItem` to report a leftover between nothing and everything
offered state that as a hypothesis (`HonestDeposit`).

The registry's sets and maps are Kotlin's default mutable collections, which iterate in
insertion order: a material's receivers come in the order of the persisted list, then
in the order they were registered. The model deliberately over-approximates that order.
`Domain.Enumerate` may list a set in any order without repeats, so every property of the
sender pass holds for every order, the insertion order among them.

The model relies on these facts about the code:

- The registry itself does not stop one location from holding two roles. The tools
  enforce that by refusing registered chests. `Persistence.Exclusive` is the resulting
  invariant, and `HoeTypes.ActPreservesExclusive` and `ChestListener.OnInventoryClose`
  preserve it.
- The sender pass works slot by slot. It offers each stack to receivers until nothing is
  left, and computes no free capacity in advance.
- A location that is both a sender and a receiver loses only its sender role when it is
  removed. `removeLocation` returns early after the sender set.
- Duplicate materials in the persisted receiver list: the last entry wins. This is how
  `associate` behaves.

## Model

| member | source | states |
|---|---|---|
| Persistence.Flatten | src/main/kotlin/tf/sou/mc/pal/persistence/LocationCache.kt:34 | a location is in the flattened set exactly when some material's receiver set holds it |
| Persistence.Create | src/main/kotlin/tf/sou/mc/pal/persistence/LocationCache.kt:28-34 | the new registry is consistent (derived set equals the flattened map); senders are the listed senders; a location receives material k exactly when the last persisted entry for k lists it |
| Persistence.AssociateLastWins | src/main/kotlin/tf/sou/mc/pal/persistence/LocationCache.kt:29-30 | the map built from persisted entries has a key exactly for every listed material, holding the locations of its last entry |
| Persistence.FromFiles | src/main/kotlin/tf/sou/mc/pal/persistence/LocationCache.kt:82-96 | a missing receiver file gives no receivers, a present one gives exactly the map its entries associate (last entry per material wins); a missing sender file gives no senders, a present one gives exactly its locations; the registry is consistent |
| Persistence.ReceiverLocationsFor | src/main/kotlin/tf/sou/mc/pal/persistence/LocationCache.kt:36 | an answer exists exactly when the material has an entry, and it holds exactly the locations registered as receivers of that material; in a registry without empty entries it is never empty |
| Persistence.IsSenderChestLocation | src/main/kotlin/tf/sou/mc/pal/persistence/LocationCache.kt:38 | in a registry whose roles are exclusive, a sender is a receiver of no material |
| Persistence.IsReceiverChestLocation | src/main/kotlin/tf/sou/mc/pal/persistence/LocationCache.kt:40-41 | on a consistent registry, the derived-set test answers exactly "some material's receiver set holds the location" |
| Persistence.IsRegisteredChestLocation | src/main/kotlin/tf/sou/mc/pal/persistence/LocationCache.kt:43-44 | on a consistent registry, registered means sender or receiver of some material |
| Persistence.RemoveLocation | src/main/kotlin/tf/sou/mc/pal/persistence/LocationCache.kt:51-71 | a sender loses only that role and receiver state stays identical; a receiver-only location leaves every receiver set, every other membership is kept, no empty entry remains and the derived set is recomputed; otherwise nothing changes and false is reported |
| Persistence.AddReceiverLocation | src/main/kotlin/tf/sou/mc/pal/persistence/LocationCache.kt:73-77 | true exactly when the location was not yet a receiver of that material; afterwards the material's set is the old set plus the location, other materials are untouched, senders unchanged, derived set consistent |
| Persistence.AddSenderLocation | src/main/kotlin/tf/sou/mc/pal/persistence/LocationCache.kt:79 | true exactly when the location was new; the sender set gains only that location; receiver state untouched |
| Persistence.ChestLocationsToReceiverChests | src/main/kotlin/tf/sou/mc/pal/persistence/LocationCache.kt:46-49 | each exported entry lists exactly the receiver set of a registered material; the entries load back into exactly the same receiver map, one entry per material, each location listed once |
| Persistence.RemoveUnregisters | src/main/kotlin/tf/sou/mc/pal/persistence/LocationCache.kt:51-71 | after removal a location is unregistered, except a location that was both sender and receiver |
| Persistence.RemovePreservesInvariants | src/main/kotlin/tf/sou/mc/pal/persistence/LocationCache.kt:51-71 | removal keeps the derived set consistent, keeps "no empty entry" and never creates a second role |
| Persistence.RemoveKeepsNoEmptyEntries | src/main/kotlin/tf/sou/mc/pal/persistence/LocationCache.kt:58-68 | a removal never leaves an empty receiver entry behind, whether or not the derived set was consistent |
| Persistence.AddThenRemoveReceiver | src/main/kotlin/tf/sou/mc/pal/persistence/LocationCache.kt:51-77 | registering an unregistered chest as a receiver and removing it restores the exact registry |
| Persistence.AddThenRemoveSender | src/main/kotlin/tf/sou/mc/pal/persistence/LocationCache.kt:51-79 | registering a new sender and removing it restores the exact registry |
| Persistence.RemoveKeepsSiblingReceiver | src/test/kotlin/tf/sou/mc/pal/persistence/LocationCacheTest.kt:28-48 | removing one of two receivers of a material reports true, keeps the entry holding exactly the other, and only the other is still a receiver |
| Persistence.RemoveLastReceiverDropsEntry | src/test/kotlin/tf/sou/mc/pal/persistence/LocationCacheTest.kt:50-63 | removing the only receiver of a material drops the material's entry |
| Extensions.IsSupportedStorage | src/main/kotlin/tf/sou/mc/pal/utils/Extensions.kt:33-40 | a container is supported exactly when it is a chest or a barrel, that is, of any kind but the other kinds |
| Extensions.ChunkCountBounds | src/main/kotlin/tf/sou/mc/pal/utils/Extensions.kt:100-120 | the number of stacks is ceil(n / max): enough for n units, and one fewer is not |
| Extensions.ChunksPartition | src/main/kotlin/tf/sou/mc/pal/utils/Extensions.kt:100-120 | for a positive quantity the stack sizes lie in 1..max, all but the last are full, and they add up to the quantity |
| Extensions.AsStacks | src/main/kotlin/tf/sou/mc/pal/utils/Extensions.kt:100-120 | the loop produces exactly the partition: ceil(n / max) stacks, stack i a copy of the template carrying the i-th partition size; none for a non-positive quantity |
| Extensions.AsItemStacks | src/main/kotlin/tf/sou/mc/pal/utils/Extensions.kt:126-133 | the stacks are exactly the partition applied to the item: ceil(n / max) copies of the item, the i-th carrying the i-th partition size (all full but the last); so they are all similar to the item, each holds 1..max units, together they hold the quantity, and there are none for a non-positive quantity |
| Extensions.CountAvailableSpaceFor | src/main/kotlin/tf/sou/mc/pal/utils/Extensions.kt:135-149 | for a non-negative stack limit, free space is never negative, never exceeds one full stack per slot (when similar stacks have non-negative amounts), and is exactly one full stack per slot in an empty inventory |
| Extensions.CountAvailableSpace | src/main/kotlin/tf/sou/mc/pal/utils/Extensions.kt:151-159 | for an item with a non-negative stack limit the free space is non-negative and at most one full stack per slot (when similar stacks hold non-negative amounts); an empty inventory offers exactly one full stack per slot |
| Extensions.CountAvailableSpaceSplit | src/main/kotlin/tf/sou/mc/pal/utils/Extensions.kt:142-148 | free space is additive over any split of the slots |
| Extensions.CountAvailableSpaceExamples | src/main/kotlin/tf/sou/mc/pal/utils/Extensions.kt:151-159 | an empty slot offers a full stack, a similar stack of 20 out of 64 leaves 44, a different item offers nothing |
| Extensions.BadItemsSelectsExactly | src/main/kotlin/tf/sou/mc/pal/utils/Extensions.kt:175-181 | the misplaced items are exactly the stacks of non-empty slots of another material, in slot order |
| Extensions.FindBadItems | src/main/kotlin/tf/sou/mc/pal/utils/Extensions.kt:175-181 | the loop returns exactly the misplaced items, none of the allowed material |
| Extensions.ToPrettyString | src/main/kotlin/tf/sou/mc/pal/utils/Extensions.kt:186-189 | the lower-case/split/capitalise/join pipeline keeps the length and maps each `_` to a space, each word-initial letter to upper case and every other letter to lower case |
| Extensions.PrettyJoin | src/main/kotlin/tf/sou/mc/pal/utils/Extensions.kt:186-189 | joining two names with `_` joins their pretty forms with a space |
| Extensions.PrettyStringDirt | src/test/kotlin/tf/sou/mc/pal/utils/ExtensionsKtTest.kt:38-46 | DIRT reads "Dirt" |
| Extensions.PrettyStringGoldOre | src/test/kotlin/tf/sou/mc/pal/utils/ExtensionsKtTest.kt:38-46 | GOLD_ORE reads "Gold Ore" |
| Extensions.PrettyStringDeepslateCopperOre | src/test/kotlin/tf/sou/mc/pal/utils/ExtensionsKtTest.kt:38-46 | DEEPSLATE_COPPER_ORE reads "Deepslate Copper Ore" |
| HoeTypes.VariantFor | src/main/kotlin/tf/sou/mc/pal/domain/HoeType.kt:103 | the variant picked is made of the item's material and is the first such in declaration order; none exactly when no variant has that material |
| HoeTypes.Find | src/main/kotlin/tf/sou/mc/pal/domain/HoeType.kt:102-131 | no metadata or no matching material gives none; a diamond hoe with metadata is the debug tool; sender and receiver tools are recognised exactly when material, enchantment and display name all match and no earlier variant has the material |
| HoeTypes.Act | src/main/kotlin/tf/sou/mc/pal/domain/HoeType.kt:46-95 | the debug tool never changes the registry; a registered chest is refused with a reply and no change; a sender registration adds exactly the clicked location; a receiver registration needs a framed item and then adds exactly (material, location); no change ever happens to an unresolvable or registered block |
| HoeTypes.ActPreservesExclusive | src/main/kotlin/tf/sou/mc/pal/domain/HoeType.kt:58-95 | because registered chests are refused, tool use keeps every location in at most one role and keeps the derived set consistent |
| ChestListener.ReceiversFor | src/main/kotlin/tf/sou/mc/pal/listeners/ChestListener.kt:75-78 | the receivers of a material are exactly its registered receivers; a material without an entry has none |
| ChestListener.OfferToReceivers | src/main/kotlin/tf/sou/mc/pal/listeners/ChestListener.kt:80-94 | the receivers looked at are a prefix of the given order; the usable ones among them are offered exactly what the reference offering `Settle` prescribes, each what the previous ones left, and the final state and rest are the reference's; the unusable ones are exactly those collected; the prefix ends where nothing is left or the receivers run out, and something was still left before its last receiver; every offer is positive and, with honest leftovers, offers never grow and the rest stays within 0..amount |
| ChestListener.OfferedInOrderUnique | src/main/kotlin/tf/sou/mc/pal/listeners/ChestListener.kt:80-94 | the offering is determined by its inputs: two records of offering the same stack to the same receiver order agree on where the scan stopped, what each receiver was offered, the receivers' final state, the rest and the collected receivers, so no record can scan past the point where nothing is left |
| ChestListener.OfferNext | src/main/kotlin/tf/sou/mc/pal/listeners/ChestListener.kt:82-93 | looking at one more receiver keeps the offering in step with the reference offering over the longer prefix |
| ChestListener.SettleSlot | src/main/kotlin/tf/sou/mc/pal/listeners/ChestListener.kt:96-109 | a message is sent exactly when something moved and reports how much; the slot is untouched exactly when nothing moved, emptied exactly when everything moved, and otherwise keeps the same item; slot units plus reported units equal the original stack |
| ChestListener.HandleSenderSlot | src/main/kotlin/tf/sou/mc/pal/listeners/ChestListener.kt:73-109 | an empty slot and a material without receivers touch neither the slot nor any receiver and collect nothing; otherwise the material's receivers, each listed once, are offered the stack in that order as `OfferToReceivers` states (every offer positive, the scan ending at the first point where nothing is left), the receivers' state after the slot is the offering's, the collected receivers are exactly the unusable ones looked at, and the slot and message follow what the offering left |
| ChestListener.HandleClosedSenderChest | src/main/kotlin/tf/sou/mc/pal/listeners/ChestListener.kt:71-110 | the slots are settled in slot order, each starting from the receivers' state the previous one left and offering as `HandleSenderSlot` states; the final receivers' state is the last slot's; each slot ends as its own offering left it; the messages are the per-slot messages in slot order; the collected receivers are exactly the union of the slots' collected receivers, all registered and unusable |
| ChestListener.SenderPassConserves | src/main/kotlin/tf/sou/mc/pal/listeners/ChestListener.kt:90-109 | with honest leftovers, units left in the chest plus units reported moved equal the units before |
| ChestListener.MessagesAreMoves | src/main/kotlin/tf/sou/mc/pal/listeners/ChestListener.kt:96-109 | the sender pass only ever reports moves |
| ChestListener.PruneInvalid | src/main/kotlin/tf/sou/mc/pal/listeners/ChestListener.kt:112 | collected senders lose that role; collected receiver-only locations lose every receiver registration; no other membership changes; when some collected location was a receiver-only location, every empty entry is gone afterwards, as the cleanup after a receiver removal does; otherwise the receiver map is untouched; consistency and exclusivity are kept |
| ChestListener.PrunedUnique | src/main/kotlin/tf/sou/mc/pal/listeners/ChestListener.kt:112 | what pruning promises fixes the result: any two registries it allows hold the same senders and the same receiver map |
| ChestListener.HandleClosedReceiverChest | src/main/kotlin/tf/sou/mc/pal/listeners/ChestListener.kt:115-143 | without a framed item nothing happens; otherwise exactly the stacks of another material are cleared and handed to the player in slot order, what does not fit is dropped, and one warning naming the allowed material is sent exactly when something was cleared |
| ChestListener.OnInventoryClose | src/main/kotlin/tf/sou/mc/pal/listeners/ChestListener.kt:52-113 | nothing happens unless the location resolves to a supported, registered container; a receiver runs exactly the eviction `HandleClosedReceiverChest` states (registry and receivers untouched); a sender runs exactly the sender pass `HandleClosedSenderChest` states, then the registry loses exactly the collected receivers as `PruneInvalid` states, and the player's inventory is untouched; registrations are only ever lost; consistency and exclusivity are kept |

## Left out

- Reading and writing the two files and the JSON codec: a file is modelled as absent or as its decoded contents.
- `findItemFrame` internals (entity search, floating-point distances, attached-face check): modelled as the oracle `World.findItemFrame`.
- `resolveContainer` and `Inventory.addItem`: modelled as the oracle `World.resolve` and the parameters `deposit` and `give`.
- Wording of player messages, `toVectorString`, colour codes and `redMessage`: messages are a datatype without text.
- `onBlockBreakEvent`, the break-confirmation conversation and permissions: outside the modelled core.
- `onPlayerInteractEntityEvent`: only the `act` bodies are modelled. The handler itself calls `HoeType.find` with a material, which does not match the item-stack signature of `find`, so its dispatch is not modelled.
- `ChestInventoryProxy` and double chests: registration is checked for the closed inventory's own location only.
- `LegacyComponentSerializer`: a display name is abstracted to its serialized string, and the player's debug marker to a boolean.
- `Inventory.countAvailableSpace(Material)`: it is the item-stack instance applied to a single item of that material.
- Extensions.ToPrettyString: the case mapping covers ASCII letters only, which is all that enum constant names use.
- Extensions.AsStacks: requires a positive maximum stack size when the quantity is positive. With a maximum of zero the source loop never ends. With a negative maximum each pass adds to `remaining` until 32-bit `Int` wrap-around makes it negative; with `Int.MIN_VALUE` that gives one stack after one pass (Extensions.kt:112-118). No real item has such a maximum, and wrap-around is not modelled.
- Extensions.CountAvailableSpaceFor: sums with unbounded integers and does not model 32-bit `Int` overflow, because that needs more than 2^31 / maxStackSize slots (tens of millions for real stack limits).
- ChestListener.OfferToReceivers: the bounds on what is left hold only under `HonestDeposit`, because the host's `addItem` is not part of this model.
- Insertion order of the receiver sets: the code visits a material's receivers in insertion order, while the model lets `Domain.Enumerate` pick any order, so no contract says which receiver is offered first.

=== FILE: chest_listener.dfy ===
/** What happens when a player closes a chest: a sender chest pushes each stack to the
    receivers registered for its material, a receiver chest throws out every stack of
    the wrong material, and receivers found to be gone are unregistered afterwards. */
module ChestListener {
  import opened Domain
  import opened Persistence
  import opened Extensions

  /** The location resolves to a container of a supported kind. */
  predicate IsUsableStorage(world: World, l: Location) {
    world.resolve(l).Some? && IsSupportedStorage(world.resolve(l).value)
  }

  /** The receivers registered for a material; a material without an entry has none. */
  function ReceiversFor(cache: LocationCache, material: Material): (r: set<Location>)
    ensures r <= Flatten(cache.receiverChests)
    ensures forall l :: l in r <==> IsReceiverOf(cache.receiverChests, material, l)
  {
    match ReceiverLocationsFor(cache, material)
    case None => {}
    case Some(s) => s
  }

  // ---------------------------------------------------------------------------
  // Offering one stack to the receivers of its material

  /** The host's add-items call on a receiver inventory: the receivers' inventories are
      the abstract state `W`; the call returns the new state and the units left over. */
  ghost predicate HonestDeposit<W(!new)>(deposit: (W, Location, ItemStack) -> (W, int)) {
    forall w: W, l: Location, s: ItemStack :: s.amount > 0 ==> 0 <= deposit(w, l, s).1 <= s.amount
  }

  /** The state after offering, the units still left, and the amount offered to each target. */
  datatype Settled<W> = Settled(world: W, remaining: int, offered: seq<int>)

  /** Offers the stack to every target in turn, each time with what the previous target
      left over. */
  function Settle<W>(deposit: (W, Location, ItemStack) -> (W, int), w: W, stack: ItemStack,
                     amount: int, targets: seq<Location>): Settled<W>
    decreases |targets|
  {
    if |targets| == 0 then Settled(w, amount, [])
    else
      var step := deposit(w, targets[0], stack.WithAmount(amount));
      var rest := Settle(deposit, step.0, stack, step.1, targets[1..]);
      Settled(rest.world, rest.remaining, [amount] + rest.offered)
  }

  /** Offering to one more target continues from where the others left off. */
  lemma {:induction false} SettleAppend<W>(deposit: (W, Location, ItemStack) -> (W, int), w: W, stack: ItemStack,
                                           amount: int, targets: seq<Location>, l: Location)
    decreases |targets|
    ensures var s := Settle(deposit, w, stack, amount, targets);
      var step := deposit(s.world, l, stack.WithAmount(s.remaining));
      Settle(deposit, w, stack, amount, targets + [l]) == Settled(step.0, step.1, s.offered + [s.remaining])
  {
    if |targets| > 0 {
      var step := deposit(w, targets[0], stack.WithAmount(amount));
      assert (targets + [l])[1..] == targets[1..] + [l];
      SettleAppend(deposit, step.0, stack, step.1, targets[1..], l);
    }
  }

  /** The usable storages among `rs`, in order. */
  function UsableOnly(world: World, rs: seq<Location>): seq<Location> {
    if |rs| == 0 then []
    else UsableOnly(world, rs[..|rs| - 1]) + if IsUsableStorage(world, rs[|rs| - 1]) then [rs[|rs| - 1]] else []
  }

  lemma UsableOnlyAppend(world: World, rs: seq<Location>, l: Location)
    ensures UsableOnly(world, rs + [l]) == if IsUsableStorage(world, l) then UsableOnly(world, rs) + [l] else UsableOnly(world, rs)
  {
    assert (rs + [l])[..|rs|] == rs;
  }

  /** Each offer is at most the one before. */
  predicate NonIncreasing(s: seq<int>) {
    forall i, j :: 0 <= i < j < |s| ==> s[j] <= s[i]
  }

  lemma NonIncreasingAppend(s: seq<int>, x: int)
    requires NonIncreasing(s) && (|s| > 0 ==> x <= s[|s| - 1])
    ensures NonIncreasing(s + [x])
  {
  }

  /** The unusable receivers among the first `scanned + 1`, given those among the first `scanned`. */
  lemma InvalidStep(world: World, receivers: seq<Location>, scanned: nat, invalid: set<Location>)
    requires scanned < |receivers|
    requires forall l :: l in invalid <==> l in receivers[..scanned] && !IsUsableStorage(world, l)
    ensures var next := if IsUsableStorage(world, receivers[scanned]) then invalid else invalid + {receivers[scanned]};
      forall l :: l in next <==> l in receivers[..scanned + 1] && !IsUsableStorage(world, l)
  {
    assert receivers[..scanned + 1] == receivers[..scanned] + [receivers[scanned]];
  }

  lemma HonestStep<W(!new)>(deposit: (W, Location, ItemStack) -> (W, int), w: W, l: Location, s: ItemStack)
    requires HonestDeposit(deposit) && s.amount > 0
    ensures 0 <= deposit(w, l, s).1 <= s.amount
  {
  }

  /** The state of an offering after looking at the first `scanned` receivers: it agrees
      with the reference offering to the usable ones among them, `invalid` holds the
      unusable ones, every offer was positive, and an unusable last receiver did not
      end it. Under an honest deposit the units left only shrink. */
  ghost predicate Offering<W(!new)>(world: World, deposit: (W, Location, ItemStack) -> (W, int), w: W, stack: ItemStack,
                                    receivers: seq<Location>, scanned: nat,
                                    w': W, remaining: int, offered: seq<int>, invalid: set<Location>)
  {
    && scanned <= |receivers|
    && Settle(deposit, w, stack, stack.amount, UsableOnly(world, receivers[..scanned])) == Settled(w', remaining, offered)
    && (forall l :: l in invalid <==> l in receivers[..scanned] && !IsUsableStorage(world, l))
    && (forall i :: 0 <= i < |offered| ==> offered[i] > 0)
    && (scanned > 0 && !IsUsableStorage(world, receivers[scanned - 1]) ==> remaining > 0)
    && HonestSoFar(deposit, stack, remaining, offered)
  }

  /** Under an honest deposit: the rest lies within the stack, is at most the last
      offer, and the offers never grow. */
  ghost predicate HonestSoFar<W(!new)>(deposit: (W, Location, ItemStack) -> (W, int), stack: ItemStack,
                                       remaining: int, offered: seq<int>)
  {
    HonestDeposit(deposit) ==>
      && (stack.amount >= 0 ==> 0 <= remaining <= stack.amount)
      && (|offered| > 0 ==> remaining <= offered[|offered| - 1])
      && NonIncreasing(offered)
  }

  /** Pushes `stack` through `receivers` in order until nothing is left. An unusable
      receiver gets nothing and is reported in `invalid`; every usable one is offered
      what is still left. `scanned` is how many receivers were looked at. */
  method OfferToReceivers<W(!new)>(world: World, deposit: (W, Location, ItemStack) -> (W, int), w: W,
                                   stack: ItemStack, receivers: seq<Location>)
    returns (w': W, remaining: int, offered: seq<int>, invalid: set<Location>, scanned: nat)
    ensures scanned <= |receivers|
    // the receivers looked at were offered exactly what the reference offering prescribes
    ensures Settle(deposit, w, stack, stack.amount, UsableOnly(world, receivers[..scanned]))
      == Settled(w', remaining, offered)
    ensures forall l :: l in invalid <==> l in receivers[..scanned] && !IsUsableStorage(world, l)
    // nobody is offered nothing: iteration stops as soon as nothing is left
    ensures forall i :: 0 <= i < |offered| ==> offered[i] > 0
    ensures scanned < |receivers| ==> remaining <= 0
    // and not one receiver later: something was still left when the last one was looked at
    ensures scanned > 0 ==>
      Settle(deposit, w, stack, stack.amount, UsableOnly(world, receivers[..scanned - 1])).remaining > 0
    ensures HonestDeposit(deposit) && stack.amount >= 0 ==> 0 <= remaining <= stack.amount
    ensures HonestDeposit(deposit) ==> NonIncreasing(offered)
  {
    w', remaining, offered, invalid, scanned := w, stack.amount, [], {}, 0;
    while remaining > 0 && scanned < |receivers|
      invariant Offering(world, deposit, w, stack, receivers, scanned, w', remaining, offered, invalid)
      decreases |receivers| - scanned
    {
      w', remaining, offered, invalid, scanned := OfferNext(world, deposit, w, stack, receivers, scanned, w', remaining, offered, invalid);
    }
    if scanned > 0 {
      StopPoint(world, deposit, w, stack, receivers, scanned, w', remaining, offered);
    }
  }

  /** Looks at receiver number `scanned` with `remaining` units still to place. */
  method OfferNext<W(!new)>(world: World, deposit: (W, Location, ItemStack) -> (W, int), w: W, stack: ItemStack,
                            receivers: seq<Location>, scanned: nat,
                            w': W, remaining: int, offered: seq<int>, invalid: set<Location>)
    returns (w'': W, remaining': int, offered': seq<int>, invalid': set<Location>, scanned': nat)
    requires scanned < |receivers| && remaining > 0
    requires Offering(world, deposit, w, stack, receivers, scanned, w', remaining, offered, invalid)
    ensures scanned' == scanned + 1
    ensures Offering(world, deposit, w, stack, receivers, scanned', w'', remaining', offered', invalid')
  {
    var l := receivers[scanned];
    w'', remaining', offered', invalid', scanned' := w', remaining, offered, invalid, scanned + 1;
    if !IsUsableStorage(world, l) {
      SkipAdvance(world, deposit, w, stack, receivers, scanned, w', remaining, offered, invalid);
      invalid' := invalid + {l};
    } else {
      DepositAdvance(world, deposit, w, stack, receivers, scanned, w', remaining, offered, invalid);
      var step := deposit(w', l, stack.WithAmount(remaining));
      offered' := offered + [remaining];
      w'', remaining' := step.0, step.1;
    }
  }

  /** An unusable receiver is collected and gets nothing. */
  lemma SkipAdvance<W(!new)>(world: World, deposit: (W, Location, ItemStack) -> (W, int), w: W, stack: ItemStack,
                             receivers: seq<Location>, scanned: nat,
                             w': W, remaining: int, offered: seq<int>, invalid: set<Location>)
    requires scanned < |receivers| && remaining > 0 && !IsUsableStorage(world, receivers[scanned])
    requires Offering(world, deposit, w, stack, receivers, scanned, w', remaining, offered, invalid)
    ensures Offering(world, deposit, w, stack, receivers, scanned + 1, w', remaining, offered, invalid + {receivers[scanned]})
  {
    OfferStep(world, deposit, w, stack, receivers, scanned, w', remaining, offered);
    InvalidStep(world, receivers, scanned, invalid);
  }

  /** A usable receiver is offered everything still left. */
  lemma DepositAdvance<W(!new)>(world: World, deposit: (W, Location, ItemStack) -> (W, int), w: W, stack: ItemStack,
                                receivers: seq<Location>, scanned: nat,
                                w': W, remaining: int, offered: seq<int>, invalid: set<Location>)
    requires scanned < |receivers| && remaining > 0 && IsUsableStorage(world, receivers[scanned])
    requires Offering(world, deposit, w, stack, receivers, scanned, w', remaining, offered, invalid)
    ensures var step := deposit(w', receivers[scanned], stack.WithAmount(remaining));
      Offering(world, deposit, w, stack, receivers, scanned + 1, step.0, step.1, offered + [remaining], invalid)
  {
    OfferStep(world, deposit, w, stack, receivers, scanned, w', remaining, offered);
    InvalidStep(world, receivers, scanned, invalid);
    HonestAdvance(deposit, w', receivers[scanned], stack, remaining, offered);
  }

  lemma HonestAdvance<W(!new)>(deposit: (W, Location, ItemStack) -> (W, int), w': W, l: Location, stack: ItemStack,
                               remaining: int, offered: seq<int>)
    requires remaining > 0 && HonestSoFar(deposit, stack, remaining, offered)
    ensures HonestSoFar(deposit, stack, deposit(w', l, stack.WithAmount(remaining)).1, offered + [remaining])
  {
    if HonestDeposit(deposit) {
      HonestStep(deposit, w', l, stack.WithAmount(remaining));
      NonIncreasingAppend(offered, remaining);
    }
  }

  /** Looking at one more receiver: an unusable one changes nothing, a usable one is
      offered what is left. */
  lemma OfferStep<W>(world: World, deposit: (W, Location, ItemStack) -> (W, int), w: W, stack: ItemStack,
                     receivers: seq<Location>, scanned: nat, w': W, remaining: int, offered: seq<int>)
    requires scanned < |receivers|
    requires Settle(deposit, w, stack, stack.amount, UsableOnly(world, receivers[..scanned])) == Settled(w', remaining, offered)
    ensures var l := receivers[scanned];
      var step := deposit(w', l, stack.WithAmount(remaining));
      Settle(deposit, w, stack, stack.amount, UsableOnly(world, receivers[..scanned + 1]))
        == if IsUsableStorage(world, l) then Settled(step.0, step.1, offered + [remaining]) else Settled(w', remaining, offered)
    ensures receivers[..scanned + 1] == receivers[..scanned] + [receivers[scanned]]
  {
    var l := receivers[scanned];
    assert receivers[..scanned + 1] == receivers[..scanned] + [l];
    UsableOnlyAppend(world, receivers[..scanned], l);
    SettleAppend(deposit, w, stack, stack.amount, UsableOnly(world, receivers[..scanned]), l);
  }

  /** Where an offering stopped: if every offer was positive and an unusable last
      receiver still left something, then something was left before the last one. */
  lemma StopPoint<W>(world: World, deposit: (W, Location, ItemStack) -> (W, int), w: W, stack: ItemStack,
                     receivers: seq<Location>, scanned: nat, w': W, remaining: int, offered: seq<int>)
    requires 0 < scanned <= |receivers|
    requires Settle(deposit, w, stack, stack.amount, UsableOnly(world, receivers[..scanned])) == Settled(w', remaining, offered)
    requires forall i :: 0 <= i < |offered| ==> offered[i] > 0
    requires !IsUsableStorage(world, receivers[scanned - 1]) ==> remaining > 0
    ensures Settle(deposit, w, stack, stack.amount, UsableOnly(world, receivers[..scanned - 1])).remaining > 0
  {
    var before := Settle(deposit, w, stack, stack.amount, UsableOnly(world, receivers[..scanned - 1]));
    OfferStep(world, deposit, w, stack, receivers, scanned - 1, before.world, before.remaining, before.offered);
    assert receivers[..scanned - 1 + 1] == receivers[..scanned];
    if IsUsableStorage(world, receivers[scanned - 1]) {
      assert offered[|offered| - 1] == before.remaining;
    }
  }

  /** What `OfferToReceivers` establishes about one offering of `stack` to `receivers`
      from state `w`: the receivers looked at, where it stopped, what they were offered,
      the state and rest it ended with, and the unusable receivers it met. */
  ghost predicate OfferedInOrder<W>(world: World, deposit: (W, Location, ItemStack) -> (W, int), w: W,
                                    stack: ItemStack, receivers: seq<Location>, scanned: nat,
                                    w': W, remaining: int, offered: seq<int>, invalid: set<Location>)
  {
    && scanned <= |receivers|
    && Settle(deposit, w, stack, stack.amount, UsableOnly(world, receivers[..scanned])) == Settled(w', remaining, offered)
    && (forall l :: l in invalid <==> l in receivers[..scanned] && !IsUsableStorage(world, l))
    && (forall i :: 0 <= i < |offered| ==> offered[i] > 0)
    && (scanned < |receivers| ==> remaining <= 0)
    && (scanned > 0 ==> Settle(deposit, w, stack, stack.amount, UsableOnly(world, receivers[..scanned - 1])).remaining > 0)
  }

  /** The usable storages of a split list are those of each part. */
  lemma {:induction false} UsableOnlySplit(world: World, rs: seq<Location>, n: nat)
    requires n <= |rs|
    ensures UsableOnly(world, rs) == UsableOnly(world, rs[..n]) + UsableOnly(world, rs[n..])
    decreases |rs|
  {
    if n < |rs| {
      var m := |rs| - 1;
      UsableOnlySplit(world, rs[..m], n);
      assert rs[..m][..n] == rs[..n];
      assert rs[..m][n..] == rs[n..][..|rs[n..]| - 1];
      assert rs[n..][|rs[n..]| - 1] == rs[m];
    } else {
      assert rs[..n] == rs;
    }
  }

  /** Offering to `a` then `b` is offering to `a`, then to `b` from where `a` left off. */
  lemma {:induction false} SettleSplit<W>(deposit: (W, Location, ItemStack) -> (W, int), w: W, stack: ItemStack,
                                          amount: int, a: seq<Location>, b: seq<Location>)
    ensures var s := Settle(deposit, w, stack, amount, a);
      var t := Settle(deposit, s.world, stack, s.remaining, b);
      Settle(deposit, w, stack, amount, a + b) == Settled(t.world, t.remaining, s.offered + t.offered)
    decreases |a|
  {
    if |a| == 0 {
      assert a + b == b;
    } else {
      var step := deposit(w, a[0], stack.WithAmount(amount));
      assert (a + b)[1..] == a[1..] + b;
      SettleSplit(deposit, step.0, stack, step.1, a[1..], b);
    }
  }

  /** Looking past receiver `s1` either offers the usable one reached next exactly what
      the first `s1` left, or reaches receiver `s2 - 1` with that same rest. */
  lemma LongerPrefix<W>(world: World, deposit: (W, Location, ItemStack) -> (W, int), w: W,
                        stack: ItemStack, receivers: seq<Location>, s1: nat, s2: nat)
    requires s1 < s2 <= |receivers|
    ensures var shorter := Settle(deposit, w, stack, stack.amount, UsableOnly(world, receivers[..s1]));
      var longer := Settle(deposit, w, stack, stack.amount, UsableOnly(world, receivers[..s2]));
      || (|longer.offered| > |shorter.offered| && longer.offered[|shorter.offered|] == shorter.remaining)
      || Settle(deposit, w, stack, stack.amount, UsableOnly(world, receivers[..s2 - 1])).remaining == shorter.remaining
  {
    var p2, p1 := receivers[..s2], receivers[..s2 - 1];
    var q := p2[s1..];
    assert p2[..s1] == receivers[..s1];
    assert p1[..s1] == receivers[..s1];
    assert p1[s1..] == q[..|q| - 1];
    var a, c := UsableOnly(world, receivers[..s1]), UsableOnly(world, q);
    UsableOnlySplit(world, p2, s1);
    UsableOnlySplit(world, p1, s1);
    UsableOnlySplit(world, q, |q| - 1);
    SettleSplit(deposit, w, stack, stack.amount, a, c);
    var shorter := Settle(deposit, w, stack, stack.amount, a);
    var rest := Settle(deposit, shorter.world, stack, shorter.remaining, c);
    OfferedAtJoin(shorter.offered, rest.offered, shorter.offered + rest.offered);
    if |c| == 0 {
      assert a + [] == a;
    }
  }

  lemma OfferedAtJoin(o1: seq<int>, t: seq<int>, o2: seq<int>)
    ensures o2 == o1 + t && |t| > 0 ==> o2[|o1|] == t[0]
  {
  }

  /** A trace that looked further than another would have had to offer what the
      shorter one left, which is nothing, or would have stopped where it did. */
  lemma NoOverScan<W>(world: World, deposit: (W, Location, ItemStack) -> (W, int), w: W,
                      stack: ItemStack, receivers: seq<Location>,
                      s1: nat, w1: W, r1: int, o1: seq<int>, i1: set<Location>,
                      s2: nat, w2: W, r2: int, o2: seq<int>, i2: set<Location>)
    requires OfferedInOrder(world, deposit, w, stack, receivers, s1, w1, r1, o1, i1)
    requires OfferedInOrder(world, deposit, w, stack, receivers, s2, w2, r2, o2, i2)
    ensures s2 <= s1
  {
    if s1 < s2 {
      LongerPrefix(world, deposit, w, stack, receivers, s1, s2);
      assert false;
    }
  }

  /** The offering is determined by its inputs: two traces of the same offering agree
      on where they stopped, what was offered and left, and what was collected. */
  lemma OfferedInOrderUnique<W>(world: World, deposit: (W, Location, ItemStack) -> (W, int), w: W,
                                stack: ItemStack, receivers: seq<Location>,
                                s1: nat, w1: W, r1: int, o1: seq<int>, i1: set<Location>,
                                s2: nat, w2: W, r2: int, o2: seq<int>, i2: set<Location>)
    requires OfferedInOrder(world, deposit, w, stack, receivers, s1, w1, r1, o1, i1)
    requires OfferedInOrder(world, deposit, w, stack, receivers, s2, w2, r2, o2, i2)
    ensures s1 == s2 && w1 == w2 && r1 == r2 && o1 == o2 && i1 == i2
  {
    NoOverScan(world, deposit, w, stack, receivers, s1, w1, r1, o1, i1, s2, w2, r2, o2, i2);
    NoOverScan(world, deposit, w, stack, receivers, s2, w2, r2, o2, i2, s1, w1, r1, o1, i1);
  }

  // ---------------------------------------------------------------------------
  // Settling one sender slot

  /** The slot after its stack was offered around, and the message for the player. */
  datatype SlotOutcome = SlotOutcome(slot: Option<ItemStack>, message: Option<Message>)

  /** Units held by a slot. */
  function UnitsIn(slot: Option<ItemStack>): int {
    if slot.Some? then slot.value.amount else 0
  }

  /** Units a message reports as moved. */
  function UnitsMoved(message: Option<Message>): int {
    if message.Some? && message.value.Moved? then message.value.amount else 0
  }

  /** Given what is left of `stack` after the offering: nothing moved leaves the slot
      alone and silent; otherwise the slot is emptied or keeps the rest of the same
      stack, and the player is told how much moved. */
  function SettleSlot(stack: ItemStack, remaining: int): (o: SlotOutcome)
    ensures o.message.Some? <==> remaining < stack.amount
    ensures o.message.Some? ==> o.message.value == Moved(stack.material, stack.amount - remaining)
    ensures o.slot == Some(stack) <==> remaining >= stack.amount
    ensures o.slot.None? <==> remaining < stack.amount && remaining <= 0
    ensures o.slot.Some? ==> IsSimilar(o.slot.value, stack)
    // no unit is created or lost when the host reports an honest leftover
    ensures 0 <= remaining <= stack.amount ==> UnitsIn(o.slot) + UnitsMoved(o.message) == stack.amount
  {
    var moved := stack.amount - remaining;
    if moved <= 0 then SlotOutcome(Some(stack), None)
    else if remaining <= 0 then SlotOutcome(None, Some(Moved(stack.material, moved)))
    else SlotOutcome(Some(stack.WithAmount(remaining)), Some(Moved(stack.material, moved)))
  }

  /** The message sent for one slot, given what was left of it. */
  function SlotMessage(slot: Option<ItemStack>, remaining: int): seq<Message> {
    if slot.Some? && SettleSlot(slot.value, remaining).message.Some? then
      [SettleSlot(slot.value, remaining).message.value]
    else []
  }

  /** The messages of a whole pass, in slot order. */
  function SlotMessages(contents: Contents, left: seq<int>): seq<Message>
    requires |left| == |contents|
  {
    if |contents| == 0 then []
    else
      var n := |contents| - 1;
      SlotMessages(contents[..n], left[..n]) + SlotMessage(contents[n], left[n])
  }

  /** The slot after the pass, given what was left of its stack. */
  function SlotAfter(slot: Option<ItemStack>, remaining: int): Option<ItemStack> {
    if slot.Some? then SettleSlot(slot.value, remaining).slot else None
  }

  // ---------------------------------------------------------------------------
  // The sender pass

  /** A stack no receiver is registered for. */
  predicate Unrouted(cache: LocationCache, slot: Option<ItemStack>) {
    slot.Some? && ReceiversFor(cache, slot.value.material) == {}
  }

  /** What is left of a slot's stack lies between nothing and all of it. */
  predicate LeftWithin(slot: Option<ItemStack>, remaining: int) {
    slot.Some? && slot.value.amount >= 0 ==> 0 <= remaining <= slot.value.amount
  }

  /** The record of one slot of the sender pass: the receivers' state before and after
      it, what was left of its stack, the order its receivers were listed in, how many of
      them were looked at, what each usable one was offered, and the unusable ones met. */
  datatype SlotTrace<W> = SlotTrace(before: W, after: W, remaining: int, order: seq<Location>,
                                    scanned: nat, offered: seq<int>, invalid: set<Location>)

  /** One slot of the sender pass: an empty slot, or one whose material has no receivers,
      touches nothing; any other stack is offered to every receiver of its material, each
      listed once, in the listed order. */
  ghost predicate SlotStep<W>(world: World, deposit: (W, Location, ItemStack) -> (W, int),
                              cache: LocationCache, current: Option<ItemStack>, t: SlotTrace<W>)
  {
    if current.None? || Unrouted(cache, current) then
      t.after == t.before && t.invalid == {} && t.remaining == UnitsIn(current)
    else
      && Elems(t.order) == ReceiversFor(cache, current.value.material)
      && Distinct(t.order)
      && OfferedInOrder(world, deposit, t.before, current.value, t.order, t.scanned, t.after, t.remaining, t.offered, t.invalid)
  }

  /** Each slot starts from the receivers' state the previous one left, the first from
      `w`, and the last ends in `w'`. */
  ghost predicate Chained<W>(w: W, trace: seq<SlotTrace<W>>, w': W) {
    if |trace| == 0 then w' == w
    else
      && trace[0].before == w
      && trace[|trace| - 1].after == w'
      && forall i :: 0 <= i < |trace| - 1 ==> trace[i + 1].before == trace[i].after
  }

  /** Offers one slot's stack to the receivers of its material, listed in some order.
      `t` records what the offering did. */
  method HandleSenderSlot<W(!new)>(world: World, deposit: (W, Location, ItemStack) -> (W, int),
                                   cache: LocationCache, w: W, current: Option<ItemStack>)
    returns (w': W, after: Option<ItemStack>, message: seq<Message>, invalid: set<Location>, ghost t: SlotTrace<W>)
    ensures t.before == w && t.after == w' && t.invalid == invalid
    ensures SlotStep(world, deposit, cache, current, t)
    ensures after == SlotAfter(current, t.remaining)
    ensures message == SlotMessage(current, t.remaining)
    ensures HonestDeposit(deposit) ==> LeftWithin(current, t.remaining)
    ensures forall l :: l in invalid ==> !IsUsableStorage(world, l) && l in Flatten(cache.receiverChests)
  {
    w', after, message, invalid := w, current, [], {};
    t := SlotTrace(w, w, UnitsIn(current), [], 0, [], {});
    if current.None? {
      return;
    }
    var stack := current.value;
    var receivers := ReceiversFor(cache, stack.material);
    if receivers == {} {
      return;
    }
    var order := Enumerate(receivers);
    var rest, offered, scanned;
    w', rest, offered, invalid, scanned := OfferToReceivers(world, deposit, w, stack, order);
    assert forall l :: l in invalid ==> l in order;
    t := SlotTrace(w, w', rest, order, scanned, offered, invalid);
    var outcome := SettleSlot(stack, rest);
    after := outcome.slot;
    if outcome.message.Some? {
      message := [outcome.message.value];
    }
  }

  /** The whole sender pass over `contents`, from receivers' state `w` to `w'`: slot i is
      settled by `trace[i]`, `left[i]` is what was left of its stack, the messages are the
      slots' messages in slot order, and `invalid` collects every unusable receiver met. */
  ghost predicate SenderPass<W>(world: World, deposit: (W, Location, ItemStack) -> (W, int), cache: LocationCache,
                                w: W, contents: Contents, w': W, contents': Contents, messages: seq<Message>,
                                invalid: set<Location>, left: seq<int>, trace: seq<SlotTrace<W>>)
  {
    && |contents'| == |contents| == |left| == |trace|
    && Chained(w, trace, w')
    && (forall i :: 0 <= i < |trace| ==> SlotStep(world, deposit, cache, contents[i], trace[i]) && left[i] == trace[i].remaining)
    && (forall i :: 0 <= i < |contents| ==> contents'[i] == SlotAfter(contents[i], left[i]))
    && messages == SlotMessages(contents, left)
    && (forall l :: l in invalid <==> exists i :: 0 <= i < |trace| && l in trace[i].invalid)
  }

  /** Runs every slot of a closed sender chest through the receivers of its material.
      Unusable receivers are only collected here; unregistering them is left to the caller. */
  method HandleClosedSenderChest<W(!new)>(world: World, deposit: (W, Location, ItemStack) -> (W, int),
                                          cache: LocationCache, w: W, contents: Contents)
    returns (w': W, contents': Contents, messages: seq<Message>, invalid: set<Location>,
             ghost left: seq<int>, ghost trace: seq<SlotTrace<W>>)
    ensures SenderPass(world, deposit, cache, w, contents, w', contents', messages, invalid, left, trace)
    ensures HonestDeposit(deposit) ==> forall i :: 0 <= i < |contents| ==> LeftWithin(contents[i], left[i])
    ensures forall l :: l in invalid ==> !IsUsableStorage(world, l) && l in Flatten(cache.receiverChests)
  {
    w', contents', messages, invalid, left, trace := w, [], [], {}, [], [];
    var slot := 0;
    while slot < |contents|
      invariant PassSoFar(world, deposit, cache, w, contents, slot, w', contents', messages, invalid, left, trace)
    {
      var w1, after, message, bad, t := HandleSenderSlot(world, deposit, cache, w', contents[slot]);
      PassAdvance(world, deposit, cache, w, contents, slot, w', contents', messages, invalid, left, trace, t, after, message);
      w', contents', messages, invalid := w1, contents' + [after], messages + message, invalid + bad;
      left, trace := left + [t.remaining], trace + [t];
      slot := slot + 1;
    }
    assert contents[..slot] == contents;
  }

  /** The sender pass over the first `slot` slots, with what the whole pass promises
      about leftovers and collected receivers. */
  ghost predicate PassSoFar<W(!new)>(world: World, deposit: (W, Location, ItemStack) -> (W, int), cache: LocationCache,
                                     w: W, contents: Contents, slot: nat, w': W, contents': Contents, messages: seq<Message>,
                                     invalid: set<Location>, left: seq<int>, trace: seq<SlotTrace<W>>)
  {
    && slot <= |contents|
    && SenderPass(world, deposit, cache, w, contents[..slot], w', contents', messages, invalid, left, trace)
    && (HonestDeposit(deposit) ==> forall i :: 0 <= i < slot ==> LeftWithin(contents[i], left[i]))
    && (forall l :: l in invalid ==> !IsUsableStorage(world, l) && l in Flatten(cache.receiverChests))
  }

  lemma PassAdvance<W(!new)>(world: World, deposit: (W, Location, ItemStack) -> (W, int), cache: LocationCache,
                             w: W, contents: Contents, slot: nat, w': W, contents': Contents, messages: seq<Message>,
                             invalid: set<Location>, left: seq<int>, trace: seq<SlotTrace<W>>,
                             t: SlotTrace<W>, after: Option<ItemStack>, message: seq<Message>)
    requires slot < |contents|
    requires PassSoFar(world, deposit, cache, w, contents, slot, w', contents', messages, invalid, left, trace)
    requires t.before == w' && SlotStep(world, deposit, cache, contents[slot], t)
    requires after == SlotAfter(contents[slot], t.remaining) && message == SlotMessage(contents[slot], t.remaining)
    requires HonestDeposit(deposit) ==> LeftWithin(contents[slot], t.remaining)
    requires forall l :: l in t.invalid ==> !IsUsableStorage(world, l) && l in Flatten(cache.receiverChests)
    ensures PassSoFar(world, deposit, cache, w, contents, slot + 1, t.after, contents' + [after], messages + message,
                      invalid + t.invalid, left + [t.remaining], trace + [t])
  {
    SenderPassAppend(world, deposit, cache, w, contents[..slot], w', contents', messages, invalid, left, trace,
                     contents[slot], t, after, message);
    assert contents[..slot + 1] == contents[..slot] + [contents[slot]];
  }

  /** The sender pass over one more slot. */
  lemma SenderPassAppend<W>(world: World, deposit: (W, Location, ItemStack) -> (W, int), cache: LocationCache,
                            w: W, contents: Contents, w': W, contents': Contents, messages: seq<Message>,
                            invalid: set<Location>, left: seq<int>, trace: seq<SlotTrace<W>>,
                            current: Option<ItemStack>, t: SlotTrace<W>, after: Option<ItemStack>, message: seq<Message>)
    requires SenderPass(world, deposit, cache, w, contents, w', contents', messages, invalid, left, trace)
    requires t.before == w' && SlotStep(world, deposit, cache, current, t)
    requires after == SlotAfter(current, t.remaining) && message == SlotMessage(current, t.remaining)
    ensures SenderPass(world, deposit, cache, w, contents + [current], t.after, contents' + [after], messages + message,
                       invalid + t.invalid, left + [t.remaining], trace + [t])
  {
    ChainedAppend(w, trace, w', t);
    InvalidAppend(trace, t, invalid, t.invalid);
    var n := |contents|;
    assert (contents + [current])[..n] == contents;
    assert (left + [t.remaining])[..n] == left;
  }

  lemma ChainedAppend<W>(w: W, trace: seq<SlotTrace<W>>, w': W, t: SlotTrace<W>)
    requires Chained(w, trace, w') && t.before == w'
    ensures Chained(w, trace + [t], t.after)
  {
    var next := trace + [t];
    forall i | 0 <= i < |next| - 1
      ensures next[i + 1].before == next[i].after
    {
      if i + 1 < |trace| {
        assert next[i + 1] == trace[i + 1] && next[i] == trace[i];
      }
    }
  }

  lemma InvalidAppend<W>(trace: seq<SlotTrace<W>>, t: SlotTrace<W>, invalid: set<Location>, bad: set<Location>)
    requires forall l :: l in invalid <==> exists i :: 0 <= i < |trace| && l in trace[i].invalid
    requires t.invalid == bad
    ensures forall l :: l in invalid + bad <==> exists i :: 0 <= i < |trace + [t]| && l in (trace + [t])[i].invalid
  {
    var next := trace + [t];
    forall l
      ensures l in invalid + bad <==> exists i :: 0 <= i < |next| && l in next[i].invalid
    {
      if l in invalid {
        var i :| 0 <= i < |trace| && l in trace[i].invalid;
        assert next[i] == trace[i];
      }
      if l in bad {
        assert next[|trace|] == t;
      }
      if exists i :: 0 <= i < |next| && l in next[i].invalid {
        var i :| 0 <= i < |next| && l in next[i].invalid;
        if i < |trace| {
          assert next[i] == trace[i];
        }
      }
    }
  }

  /** Units held by all slots. */
  function TotalUnits(contents: Contents): int {
    if |contents| == 0 then 0 else TotalUnits(contents[..|contents| - 1]) + UnitsIn(contents[|contents| - 1])
  }

  /** Units reported as moved by a list of messages. */
  function TotalMoved(messages: seq<Message>): int {
    if |messages| == 0 then 0 else TotalMoved(messages[..|messages| - 1]) + UnitsMoved(Some(messages[|messages| - 1]))
  }

  lemma TotalMovedAppend(a: seq<Message>, b: seq<Message>)
    ensures TotalMoved(a + b) == TotalMoved(a) + TotalMoved(b)
  {
    if |b| > 0 {
      assert (a + b)[..|a + b| - 1] == a + b[..|b| - 1];
      TotalMovedAppend(a, b[..|b| - 1]);
    } else {
      assert a + b == a;
    }
  }

  /** Conservation over a pass: when every slot kept between nothing and all of its
      stack, the units still in the chest plus the units reported moved equal the units
      the chest held before. */
  lemma {:induction false} SenderPassConserves(contents: Contents, left: seq<int>)
    requires |left| == |contents|
    requires forall i :: 0 <= i < |contents| && contents[i].Some? ==> 0 <= left[i] <= contents[i].value.amount
    ensures TotalUnits(seq(|contents|, i requires 0 <= i < |contents| => SlotAfter(contents[i], left[i])))
      + TotalMoved(SlotMessages(contents, left)) == TotalUnits(contents)
  {
    var after := seq(|contents|, i requires 0 <= i < |contents| => SlotAfter(contents[i], left[i]));
    if |contents| > 0 {
      var n := |contents| - 1;
      SenderPassConserves(contents[..n], left[..n]);
      var afterPrefix := seq(n, i requires 0 <= i < n => SlotAfter(contents[..n][i], left[..n][i]));
      assert after[..n] == afterPrefix;
      TotalMovedAppend(SlotMessages(contents[..n], left[..n]), SlotMessage(contents[n], left[n]));
      if contents[n].Some? {
        var o := SettleSlot(contents[n].value, left[n]);
        assert TotalMoved(SlotMessage(contents[n], left[n])) == UnitsMoved(o.message);
      }
    }
  }

  // ---------------------------------------------------------------------------
  // Unregistering receivers found to be gone

  /** `cache'` is `cache` with every location of `invalid` unregistered in one role:
      collected senders stop being senders; a collected location that was not a sender
      loses its receiver registrations; nothing else changes, and a material left without
      receivers loses its entry. */
  ghost predicate Pruned(cache: LocationCache, invalid: set<Location>, cache': LocationCache) {
    && cache'.senderLocations == cache.senderLocations - invalid
    // a location not collected keeps its receiver registrations
    && (forall k, x :: x !in invalid ==>
      (IsReceiverOf(cache'.receiverChests, k, x) <==> IsReceiverOf(cache.receiverChests, k, x)))
    // a collected receiver is gone, unless it was a sender too: then only that role went
    && (forall k, x :: x in invalid && x !in cache.senderLocations ==> !IsReceiverOf(cache'.receiverChests, k, x))
    && (forall k, x :: x in invalid && x in cache.senderLocations ==>
      (IsReceiverOf(cache'.receiverChests, k, x) <==> IsReceiverOf(cache.receiverChests, k, x)))
    && (cache.NoEmptyEntries() ==> cache'.NoEmptyEntries())
    // once a receiver goes, every empty entry goes with it; otherwise the receiver map is untouched
    && (DropsReceiver(cache, invalid) ==> cache'.NoEmptyEntries())
    && (!DropsReceiver(cache, invalid) ==> cache'.receiverChests == cache.receiverChests)
  }

  /** Some collected location is a receiver and no sender, so pruning takes a receiver
      out and cleans up the empty entries. */
  ghost predicate DropsReceiver(cache: LocationCache, invalid: set<Location>) {
    exists k, x :: x in invalid && x !in cache.senderLocations && IsReceiverOf(cache.receiverChests, k, x)
  }

  /** Pruning is determined by its inputs: two registries that both prune `invalid` from
      `cache` hold the same senders and the same receiver map. */
  lemma PrunedUnique(cache: LocationCache, invalid: set<Location>, c1: LocationCache, c2: LocationCache)
    requires Pruned(cache, invalid, c1) && Pruned(cache, invalid, c2)
    ensures c1.senderLocations == c2.senderLocations
    ensures c1.receiverChests == c2.receiverChests
  {
    if DropsReceiver(cache, invalid) {
      assert forall k, x :: IsReceiverOf(c1.receiverChests, k, x) <==> IsReceiverOf(c2.receiverChests, k, x);
      SameMembershipSameMap(c1, c2);
    }
  }

  /** Receiver maps without empty entries are fixed by their memberships. */
  lemma SameMembershipSameMap(c1: LocationCache, c2: LocationCache)
    requires c1.NoEmptyEntries() && c2.NoEmptyEntries()
    requires forall k, x :: IsReceiverOf(c1.receiverChests, k, x) <==> IsReceiverOf(c2.receiverChests, k, x)
    ensures c1.receiverChests == c2.receiverChests
  {
    var m1, m2 := c1.receiverChests, c2.receiverChests;
    forall k | k in m1
      ensures k in m2
    {
      var x :| x in m1[k];
      assert IsReceiverOf(m1, k, x);
    }
    forall k | k in m2
      ensures k in m1
    {
      var x :| x in m2[k];
      assert IsReceiverOf(m2, k, x);
    }
    forall k | k in m1
      ensures m1[k] == m2[k]
    {
      assert forall x :: x in m1[k] <==> IsReceiverOf(m2, k, x);
    }
  }

  lemma DropsReceiverStep(cache: LocationCache, done: set<Location>, l: Location)
    ensures DropsReceiver(cache, done + {l}) <==>
      DropsReceiver(cache, done) || (l !in cache.senderLocations && exists k :: IsReceiverOf(cache.receiverChests, k, l))
  {
    if l !in cache.senderLocations && exists k :: IsReceiverOf(cache.receiverChests, k, l) {
      var k :| IsReceiverOf(cache.receiverChests, k, l);
      assert l in done + {l};
    }
    if DropsReceiver(cache, done) {
      var k, x :| x in done && x !in cache.senderLocations && IsReceiverOf(cache.receiverChests, k, x);
      assert x in done + {l};
    }
  }

  /** Unregisters every collected location, one after the other. */
  method PruneInvalid(cache: LocationCache, invalid: set<Location>) returns (cache': LocationCache)
    ensures Pruned(cache, invalid, cache')
    ensures cache.Valid() ==> cache'.Valid()
    ensures cache.Valid() && Exclusive(cache) ==> Exclusive(cache')
  {
    cache' := cache;
    var todo := invalid;
    while todo != {}
      invariant todo <= invalid
      invariant cache'.senderLocations == cache.senderLocations - (invalid - todo)
      invariant forall k, x :: x !in invalid - todo ==>
        (IsReceiverOf(cache'.receiverChests, k, x) <==> IsReceiverOf(cache.receiverChests, k, x))
      invariant forall k, x :: x in invalid - todo && x !in cache.senderLocations ==>
        !IsReceiverOf(cache'.receiverChests, k, x)
      invariant forall k, x :: x in invalid - todo && x in cache.senderLocations ==>
        (IsReceiverOf(cache'.receiverChests, k, x) <==> IsReceiverOf(cache.receiverChests, k, x))
      invariant cache.NoEmptyEntries() ==> cache'.NoEmptyEntries()
      invariant DropsReceiver(cache, invalid - todo) ==> cache'.NoEmptyEntries()
      invariant !DropsReceiver(cache, invalid - todo) ==> cache'.receiverChests == cache.receiverChests
      invariant cache.Valid() ==> cache'.Valid()
      invariant cache.Valid() && Exclusive(cache) ==> Exclusive(cache')
      decreases todo
    {
      var l :| l in todo;
      RemoveKeepsNoEmptyEntries(cache', l);
      DropsReceiverStep(cache, invalid - todo, l);
      if cache'.Valid() {
        RemovePreservesInvariants(cache', l);
      }
      cache' := RemoveLocation(cache', l).cache;
      todo := todo - {l};
    }
  }

  // ---------------------------------------------------------------------------
  // The receiver pass

  /** Hands each stack to the player's inventory (abstract state `P`); what does not fit
      is dropped at the player's feet. */
  function GiveAll<P>(give: (P, ItemStack) -> (P, seq<ItemStack>), player: P, stacks: seq<ItemStack>): (P, seq<ItemStack>) {
    if |stacks| == 0 then (player, [])
    else
      var prior := GiveAll(give, player, stacks[..|stacks| - 1]);
      var step := give(prior.0, stacks[|stacks| - 1]);
      (step.0, prior.1 + step.1)
  }

  /** What closing receiver chest `here` does to its contents, the player and the chat:
      without a framed item nothing; otherwise every stack of another material is taken
      out and handed over in slot order, and one warning is sent if anything was taken. */
  ghost predicate Evicted<P>(world: World, here: Location, contents: Contents,
                             give: (P, ItemStack) -> (P, seq<ItemStack>), player: P,
                             contents': Contents, player': P, dropped: seq<ItemStack>, messages: seq<Message>)
  {
    if world.findItemFrame(here).Found? then
      var allowed := world.findItemFrame(here).item;
      && |contents'| == |contents|
      && (forall i :: 0 <= i < |contents| ==> contents'[i] == if IsBad(contents[i], allowed) then None else contents[i])
      && (player', dropped) == GiveAll(give, player, BadItems(contents, allowed))
      && messages == if exists i :: 0 <= i < |contents| && IsBad(contents[i], allowed) then [OnlyTakes(allowed)] else []
    else
      contents' == contents && player' == player && dropped == [] && messages == []
  }

  /** A closed receiver chest keeps only its frame's material. Without a framed item
      nothing happens; otherwise every other stack is taken out and handed to the player,
      and the player is warned once if anything was taken. */
  method HandleClosedReceiverChest<P>(world: World, location: Location, contents: Contents,
                                      give: (P, ItemStack) -> (P, seq<ItemStack>), player: P)
    returns (contents': Contents, player': P, dropped: seq<ItemStack>, evicted: seq<ItemStack>, warning: Option<Message>)
    ensures !world.findItemFrame(location).Found? ==>
      contents' == contents && player' == player && dropped == [] && evicted == [] && warning.None?
    ensures world.findItemFrame(location).Found? ==>
      var allowed := world.findItemFrame(location).item;
      && |contents'| == |contents|
      && (forall i :: 0 <= i < |contents| ==> contents'[i] == if IsBad(contents[i], allowed) then None else contents[i])
      && evicted == BadItems(contents, allowed)
      && (warning.Some? <==> exists i :: 0 <= i < |contents| && IsBad(contents[i], allowed))
      && (warning.Some? ==> warning.value == OnlyTakes(allowed))
      && (player', dropped) == GiveAll(give, player, evicted)
  {
    contents', player', dropped, evicted, warning := contents, player, [], [], None;
    var frame := world.findItemFrame(location);
    if !frame.Found? {
      return;
    }
    var allowed := frame.item;
    var removedAny := false;
    var slot := 0;
    while slot < |contents|
      invariant 0 <= slot <= |contents|
      invariant |contents'| == |contents|
      invariant forall i :: 0 <= i < slot ==> contents'[i] == if IsBad(contents[i], allowed) then None else contents[i]
      invariant forall i :: slot <= i < |contents| ==> contents'[i] == contents[i]
      invariant evicted == BadItems(contents[..slot], allowed)
      invariant removedAny <==> exists i :: 0 <= i < slot && IsBad(contents[i], allowed)
      invariant (player', dropped) == GiveAll(give, player, evicted)
    {
      assert contents[..slot + 1][..slot] == contents[..slot];
      var current := contents'[slot];
      if current.Some? && current.value.material != allowed {
        contents' := contents'[slot := None];
        removedAny := true;
        var step := give(player', current.value);
        assert (evicted + [current.value])[..|evicted|] == evicted;
        evicted := evicted + [current.value];
        player', dropped := step.0, dropped + step.1;
      }
      slot := slot + 1;
    }
    assert contents[..slot] == contents;
    if removedAny {
      warning := Some(OnlyTakes(allowed));
    }
  }

  // ---------------------------------------------------------------------------
  // The close event

  /** Which way a closed inventory went. */
  datatype ClosePath = Ignored | ReceiverPath | SenderPath

  /** Everything a close event can change. */
  datatype CloseResult<W, P> = CloseResult(
    path: ClosePath,
    cache: LocationCache,
    contents: Contents,
    receivers: W,
    player: P,
    messages: seq<Message>,
    dropped: seq<ItemStack>)

  /** A closed inventory is only looked at when it has a location that resolves to a
      supported, registered container. A receiver goes to the eviction pass and never
      to the sender pass; a sender runs the sender pass and then unregisters the
      receivers found to be gone. */
  method OnInventoryClose<W(!new), P>(world: World, cache: LocationCache, location: Option<Location>, contents: Contents,
                                      deposit: (W, Location, ItemStack) -> (W, int), w: W,
                                      give: (P, ItemStack) -> (P, seq<ItemStack>), player: P)
    returns (r: CloseResult<W, P>, ghost invalid: set<Location>, ghost left: seq<int>, ghost trace: seq<SlotTrace<W>>)
    ensures r.path == Ignored <==>
      location.None? || !IsUsableStorage(world, location.value) || !IsRegisteredChestLocation(cache, location.value)
    ensures r.path == ReceiverPath <==> r.path != Ignored && IsReceiverChestLocation(cache, location.value)
    ensures r.path == Ignored ==>
      r == CloseResult(Ignored, cache, contents, w, player, [], [])
    // eviction touches neither the registry nor any receiver
    ensures r.path == ReceiverPath ==> r.cache == cache && r.receivers == w
    ensures r.path == ReceiverPath ==>
      Evicted(world, location.value, contents, give, player, r.contents, r.player, r.dropped, r.messages)
    // a sender runs the sender pass, then loses exactly the unusable receivers it met
    ensures r.path == SenderPath ==>
      && SenderPass(world, deposit, cache, w, contents, r.receivers, r.contents, r.messages, invalid, left, trace)
      && Pruned(cache, invalid, r.cache)
    // the sender pass never touches the player's inventory
    ensures r.path == SenderPath ==> r.player == player && r.dropped == []
    ensures r.path == SenderPath ==> forall i :: 0 <= i < |r.messages| ==> r.messages[i].Moved?
    ensures |r.contents| == |contents|
    // registrations are only ever lost, and only registry invariants survive
    ensures forall l :: IsRegisteredChestLocation(r.cache, l) && cache.Valid() ==> IsRegisteredChestLocation(cache, l)
    ensures cache.Valid() ==> r.cache.Valid()
    ensures cache.Valid() && Exclusive(cache) ==> Exclusive(r.cache)
  {
    invalid, left, trace := {}, [], [];
    if location.None? || !IsUsableStorage(world, location.value) || !IsRegisteredChestLocation(cache, location.value) {
      r := CloseResult(Ignored, cache, contents, w, player, [], []);
      return;
    }
    var here := location.value;
    if IsReceiverChestLocation(cache, here) {
      var contents', player', dropped, evicted, warning := HandleClosedReceiverChest(world, here, contents, give, player);
      var messages := if warning.Some? then [warning.value] else [];
      r := CloseResult(ReceiverPath, cache, contents', w, player', messages, dropped);
      return;
    }
    var w', contents', messages, bad;
    w', contents', messages, bad, left, trace := HandleClosedSenderChest(world, deposit, cache, w, contents);
    invalid := bad;
    MessagesAreMoves(contents, left);
    var cache' := PruneInvalid(cache, bad);
    r := CloseResult(SenderPath, cache', contents', w', player, messages, []);
  }

  /** The sender pass only ever reports moves. */
  lemma {:induction false} MessagesAreMoves(contents: Contents, left: seq<int>)
    requires |left| == |contents|
    ensures forall i :: 0 <= i < |SlotMessages(contents, left)| ==> SlotMessages(contents, left)[i].Moved?
  {
    if |contents| > 0 {
      var n := |contents| - 1;
      MessagesAreMoves(contents[..n], left[..n]);
    }
  }
}

=== FILE: domain.dfy ===
/** Shared vocabulary of the ChestPal model: locations, materials, item stacks,
    and the read-only views of the host world that the plugin consults. */
module Domain {

  /** The conventional Some/None datatype, standing for Kotlin's nullable types. */
  datatype Option<+T> = None | Some(value: T)

  /** A block position. The host's double-valued axes are abstracted to integers:
      the plugin only ever compares locations for equality and uses them as keys. */
  datatype Location = Location(world: string, x: int, y: int, z: int)

  /** An item kind of the host's closed material enumeration: its constant name
      and the maximum number of units one stack of it may hold. */
  datatype Material = Material(name: string, maxStackSize: int)

  /** Item metadata as far as the plugin reads it: the enchantments present and the
      display name in its serialized (legacy section) form, if there is one. */
  datatype ItemMeta = ItemMeta(enchantments: set<string>, displayName: Option<string>)

  /** A stack of items. `meta` is absent only for items that cannot carry metadata. */
  datatype ItemStack = ItemStack(material: Material, amount: int, meta: Option<ItemMeta>)
  {
    /** The maximum size of a stack of this item, derived from its material. */
    function MaxStackSize(): int { material.maxStackSize }

    /** The same stack with a different amount (clone, then set the amount). */
    function WithAmount(n: int): (s: ItemStack)
      ensures s.material == material && s.meta == meta && s.amount == n
    {
      this.(amount := n)
    }
  }

  /** Two stacks are similar when they could merge: same material and same metadata. */
  predicate IsSimilar(a: ItemStack, b: ItemStack) {
    a.material == b.material && a.meta == b.meta
  }

  /** The contents of an inventory: a fixed number of slots, each empty or holding a stack. */
  type Contents = seq<Option<ItemStack>>

  /** The kind of inventory a block container has; `OtherKind` stands for every kind
      the plugin does not support (furnaces, hoppers, ...). */
  datatype InventoryKind = Chest | Barrel | OtherKind

  /** What the item-frame lookup next to a chest reports. */
  datatype ItemFrameResult = NoFrame | NoItem | Found(item: Material)

  /** The world as the plugin observes it. `resolve` answers what container (if any)
      stands at a location; `findItemFrame` is the marker lookup next to a chest. */
  datatype World = World(
    resolve: Location -> Option<InventoryKind>,
    findItemFrame: Location -> ItemFrameResult
  )

  /** Messages sent to the acting player, without their exact wording. */
  datatype Message =
    | Moved(material: Material, amount: int)
    | OnlyTakes(material: Material)
    | AlreadyRegistered
    | SavingSender(location: Location)
    | CouldNotFindFrame
    | FrameHasNoItem
    | SavedReceiver(material: Material)
    | DebugLocation(location: Location)

  /** The set of elements of a sequence. */
  function Elems<T>(s: seq<T>): set<T> {
    set x | x in s
  }

  /** No element occurs twice. */
  predicate Distinct<T(==)>(s: seq<T>) {
    forall i, j :: 0 <= i < j < |s| ==> s[i] != s[j]
  }

  /** Lists the elements of a set, each exactly once, in any order: a deliberate
      over-approximation of the insertion order the registry's sets iterate in. */
  method Enumerate<T(==)>(s: set<T>) returns (r: seq<T>)
    ensures Elems(r) == s
    ensures Distinct(r)
  {
    r := [];
    var todo := s;
    while todo != {}
      invariant todo <= s
      invariant Elems(r) == s - todo
      invariant Distinct(r)
      decreases todo
    {
      var x :| x in todo;
      assert Elems(r + [x]) == Elems(r) + {x};
      r := r + [x];
      todo := todo - {x};
    }
  }
}

=== FILE: extensions.dfy ===
/** The pure helpers the listeners rely on: storage support, partitioning a quantity
    into stacks, counting free space, picking out misplaced items, and pretty names. */
module Extensions {
  import opened Domain

  /** Chests and barrels are the supported storage containers. */
  predicate IsSupportedStorage(kind: InventoryKind)
    ensures IsSupportedStorage(kind) <==> !kind.OtherKind?
  {
    kind == Chest || kind == Barrel
  }

  // ---------------------------------------------------------------------------
  // Partitioning a quantity into stacks

  /** The number of stacks `n` units need at `maxStackSize` per stack: ceil(n / max). */
  function ChunkCount(n: int, maxStackSize: int): nat
    requires n <= 0 || maxStackSize > 0
  {
    if n <= 0 then 0 else (n + maxStackSize - 1) / maxStackSize
  }

  /** The stack sizes as a closed form: all full except the last, which takes the rest. */
  function Chunks(n: int, maxStackSize: int): seq<int>
    requires n <= 0 || maxStackSize > 0
  {
    var k := ChunkCount(n, maxStackSize);
    seq(k, i requires 0 <= i < k => if i < k - 1 then maxStackSize else n - (k - 1) * maxStackSize)
  }

  function Sum(s: seq<int>): int {
    if |s| == 0 then 0 else Sum(s[..|s| - 1]) + s[|s| - 1]
  }

  /** `k` full stacks hold `k * max` units. */
  lemma {:induction false} SumOfFullStacks(s: seq<int>, maxStackSize: int)
    requires forall i :: 0 <= i < |s| ==> s[i] == maxStackSize
    ensures Sum(s) == |s| * maxStackSize
  {
    if |s| > 0 {
      SumOfFullStacks(s[..|s| - 1], maxStackSize);
    }
  }

  /** ceil(n / max) stacks are enough for `n` units and one fewer is not. */
  lemma ChunkCountBounds(n: int, maxStackSize: int)
    requires n > 0 && maxStackSize > 0
    ensures ChunkCount(n, maxStackSize) >= 1
    ensures (ChunkCount(n, maxStackSize) - 1) * maxStackSize < n <= ChunkCount(n, maxStackSize) * maxStackSize
  {
    var k := ChunkCount(n, maxStackSize);
    var r := (n + maxStackSize - 1) % maxStackSize;
    assert n + maxStackSize - 1 == k * maxStackSize + r;
    assert (k - 1) * maxStackSize == k * maxStackSize - maxStackSize;
  }

  /** The partition of a positive quantity: every stack holds between 1 and `max`
      units, all but the last are full, and together they hold exactly `n`. */
  lemma ChunksPartition(n: int, maxStackSize: int)
    requires n > 0 && maxStackSize > 0
    ensures var c := Chunks(n, maxStackSize);
      && |c| == ChunkCount(n, maxStackSize) >= 1
      && (forall i :: 0 <= i < |c| ==> 1 <= c[i] <= maxStackSize)
      && (forall i :: 0 <= i < |c| - 1 ==> c[i] == maxStackSize)
      && Sum(c) == n
  {
    var c := Chunks(n, maxStackSize);
    var k := |c|;
    ChunkCountBounds(n, maxStackSize);
    SumOfFullStacks(c[..k - 1], maxStackSize);
    assert c[..k] == c;
  }

  /** Where the remaining quantity stands after `j` full stacks have been taken. */
  lemma ChunkAt(n: int, maxStackSize: int, j: nat)
    requires n > 0 && maxStackSize > 0
    requires n - j * maxStackSize > 0
    ensures j < ChunkCount(n, maxStackSize)
    ensures n - j * maxStackSize <= maxStackSize <==> j == ChunkCount(n, maxStackSize) - 1
    ensures Chunks(n, maxStackSize)[j] ==
      if n - j * maxStackSize < maxStackSize then n - j * maxStackSize else maxStackSize
  {
    var k := ChunkCount(n, maxStackSize);
    ChunkCountBounds(n, maxStackSize);
    if j >= k {
      MulMonotone(k, j, maxStackSize);
    }
    assert (j + 1) * maxStackSize == j * maxStackSize + maxStackSize;
    if j + 1 <= k - 1 {
      MulMonotone(j + 1, k - 1, maxStackSize);
    }
  }

  lemma MulMonotone(a: int, b: int, m: int)
    requires a <= b && m >= 0
    ensures a * m <= b * m
  {
    assert b * m - a * m == (b - a) * m;
  }

  /** Splits `n` units into stacks cloned from `template` (a non-positive quantity
      gives no stacks). The loop takes min(remaining, max) units per stack. */
  method AsStacks<T>(n: int, maxStackSize: int, template: T, setAmount: (T, int) -> T) returns (stacks: seq<T>)
    requires n <= 0 || maxStackSize > 0
    ensures |stacks| == ChunkCount(n, maxStackSize)
    ensures forall i :: 0 <= i < |stacks| ==> stacks[i] == setAmount(template, Chunks(n, maxStackSize)[i])
  {
    if n <= 0 {
      return [];
    }
    stacks := [];
    var remaining := n;
    while remaining > 0
      invariant 0 <= remaining
      invariant remaining > 0 ==> remaining == n - |stacks| * maxStackSize
      invariant remaining == 0 ==> |stacks| == ChunkCount(n, maxStackSize)
      invariant |stacks| <= ChunkCount(n, maxStackSize)
      invariant forall i :: 0 <= i < |stacks| ==> stacks[i] == setAmount(template, Chunks(n, maxStackSize)[i])
      decreases remaining
    {
      ChunkAt(n, maxStackSize, |stacks|);
      var amount := if remaining < maxStackSize then remaining else maxStackSize;
      stacks := stacks + [setAmount(template, amount)];
      remaining := remaining - amount;
    }
  }

  /** The item-stack instance: clones of `item` with the amounts of the partition. */
  method AsItemStacks(n: int, item: ItemStack) returns (stacks: seq<ItemStack>)
    requires n <= 0 || item.MaxStackSize() > 0
    ensures n <= 0 ==> stacks == []
    // the greedy shape: ceil(n / max) stacks carrying the partition's amounts, all full but the last
    ensures |stacks| == ChunkCount(n, item.MaxStackSize())
    ensures forall i :: 0 <= i < |stacks| ==> stacks[i] == item.WithAmount(Chunks(n, item.MaxStackSize())[i])
    ensures forall i :: 0 <= i < |stacks| ==>
      IsSimilar(stacks[i], item) && 1 <= stacks[i].amount <= item.MaxStackSize()
    ensures Sum(seq(|stacks|, i requires 0 <= i < |stacks| => stacks[i].amount)) == if n <= 0 then 0 else n
  {
    stacks := AsStacks(n, item.MaxStackSize(), item, (s: ItemStack, a: int) => s.WithAmount(a));
    if n > 0 {
      ChunksPartition(n, item.MaxStackSize());
      assert seq(|stacks|, i requires 0 <= i < |stacks| => stacks[i].amount) == Chunks(n, item.MaxStackSize());
    }
  }

  // ---------------------------------------------------------------------------
  // Counting free space

  /** What one slot offers: a full stack when empty, nothing when it holds a different
      item, and the unused part of the stack (never negative) when it holds a similar one. */
  function SlotSpace<T>(slot: Option<T>, item: T, maxStackSize: int, isSimilar: (T, T) -> bool, amount: T -> int): int {
    match slot
    case None => maxStackSize
    case Some(stack) =>
      if !isSimilar(stack, item) then 0
      else if maxStackSize - amount(stack) < 0 then 0
      else maxStackSize - amount(stack)
  }

  /** Similar stacks in `contents` hold a non-negative amount. */
  ghost predicate SimilarAmountsNonNegative<T>(contents: seq<Option<T>>, item: T, isSimilar: (T, T) -> bool, amount: T -> int) {
    forall i :: 0 <= i < |contents| && contents[i].Some? && isSimilar(contents[i].value, item) ==>
      amount(contents[i].value) >= 0
  }

  /** The free space for `item` summed over all slots. */
  function CountAvailableSpaceFor<T>(contents: seq<Option<T>>, item: T, maxStackSize: int,
                                     isSimilar: (T, T) -> bool, amount: T -> int): (r: int)
    ensures maxStackSize >= 0 ==> r >= 0
    ensures maxStackSize >= 0 && SimilarAmountsNonNegative(contents, item, isSimilar, amount) ==>
      r <= |contents| * maxStackSize
    ensures (forall i :: 0 <= i < |contents| ==> contents[i].None?) ==> r == |contents| * maxStackSize
  {
    if |contents| == 0 then 0
    else
      var rest := CountAvailableSpaceFor(contents[1..], item, maxStackSize, isSimilar, amount);
      assert |contents| * maxStackSize == maxStackSize + |contents[1..]| * maxStackSize;
      assert SimilarAmountsNonNegative(contents, item, isSimilar, amount) ==>
        SimilarAmountsNonNegative(contents[1..], item, isSimilar, amount);
      SlotSpace(contents[0], item, maxStackSize, isSimilar, amount) + rest
  }

  /** Free space is additive over a split of the slots. */
  lemma {:induction false} CountAvailableSpaceSplit<T>(a: seq<Option<T>>, b: seq<Option<T>>, item: T, maxStackSize: int,
                                                       isSimilar: (T, T) -> bool, amount: T -> int)
    ensures CountAvailableSpaceFor(a + b, item, maxStackSize, isSimilar, amount)
      == CountAvailableSpaceFor(a, item, maxStackSize, isSimilar, amount)
       + CountAvailableSpaceFor(b, item, maxStackSize, isSimilar, amount)
  {
    if |a| > 0 {
      assert (a + b)[1..] == a[1..] + b;
      CountAvailableSpaceSplit(a[1..], b, item, maxStackSize, isSimilar, amount);
    } else {
      assert a + b == b;
    }
  }

  /** The item-stack instance: stack limit of the item, metadata-aware similarity. */
  function CountAvailableSpace(contents: Contents, item: ItemStack): (r: int)
    ensures item.MaxStackSize() >= 0 ==> r >= 0
    // with no negative similar stacks, at most a full stack per slot
    ensures item.MaxStackSize() >= 0 ==>
      (forall i :: 0 <= i < |contents| && contents[i].Some? && IsSimilar(contents[i].value, item) ==> contents[i].value.amount >= 0) ==>
      r <= |contents| * item.MaxStackSize()
    ensures (forall i :: 0 <= i < |contents| ==> contents[i].None?) ==> r == |contents| * item.MaxStackSize()
  {
    CountAvailableSpaceFor(contents, item, item.MaxStackSize(), (a: ItemStack, b: ItemStack) => IsSimilar(a, b), (s: ItemStack) => s.amount)
  }

  /** One slot of each kind: 64 for an empty slot, 44 next to a similar stack of 20,
      nothing next to a different item. */
  lemma CountAvailableSpaceExamples(item: ItemStack, other: ItemStack)
    requires item.MaxStackSize() == 64
    requires !IsSimilar(other, item)
    ensures CountAvailableSpace([None], item) == 64
    ensures CountAvailableSpace([Some(item.WithAmount(20))], item) == 44
    ensures CountAvailableSpace([Some(other)], item) == 0
  {

  }

  // ---------------------------------------------------------------------------
  // Items that do not belong in a receiver chest

  /** A slot holding an item of another material than `allowed`. */
  predicate IsBad(slot: Option<ItemStack>, allowed: Material) {
    slot.Some? && slot.value.material != allowed
  }

  /** The misplaced items of `contents`, in slot order. */
  function BadItems(contents: Contents, allowed: Material): seq<ItemStack> {
    if |contents| == 0 then []
    else
      var last := contents[|contents| - 1];
      BadItems(contents[..|contents| - 1], allowed) + if IsBad(last, allowed) then [last.value] else []
  }

  /** `slots` lists, strictly increasing, exactly the misplaced slots, and `items` holds
      their stacks in that order. */
  ghost predicate SelectsBadSlots(contents: Contents, allowed: Material, items: seq<ItemStack>, slots: seq<int>) {
    && |slots| == |items|
    && (forall j :: 0 <= j < |slots| ==> 0 <= slots[j] < |contents| && contents[slots[j]] == Some(items[j]))
    && (forall j, j' :: 0 <= j < j' < |slots| ==> slots[j] < slots[j'])
    && (forall i :: 0 <= i < |contents| ==> (IsBad(contents[i], allowed) <==> i in slots))
  }

  /** The misplaced items are exactly the stacks of the misplaced slots, as a
      subsequence of the contents. */
  lemma {:induction false} BadItemsSelectsExactly(contents: Contents, allowed: Material)
    ensures exists slots :: SelectsBadSlots(contents, allowed, BadItems(contents, allowed), slots)
    ensures forall x :: x in BadItems(contents, allowed) ==> x.material != allowed
  {
    if |contents| == 0 {
      assert SelectsBadSlots(contents, allowed, BadItems(contents, allowed), []);
    } else {
      var n := |contents|;
      var prefix := contents[..n - 1];
      BadItemsSelectsExactly(prefix, allowed);
      var slots :| SelectsBadSlots(prefix, allowed, BadItems(prefix, allowed), slots);
      assert contents == prefix + [contents[n - 1]];
      var slots' := BadItemsStep(prefix, contents[n - 1], allowed, BadItems(prefix, allowed), slots);
      assert SelectsBadSlots(contents, allowed, BadItems(contents, allowed), slots');
    }
  }

  /** One more slot extends the selection by that slot when it is misplaced. */
  lemma BadItemsStep(prefix: Contents, last: Option<ItemStack>, allowed: Material, items: seq<ItemStack>, slots: seq<int>)
    returns (slots': seq<int>)
    requires SelectsBadSlots(prefix, allowed, items, slots)
    ensures SelectsBadSlots(prefix + [last], allowed, items + if IsBad(last, allowed) then [last.value] else [], slots')
  {
    var n := |prefix| + 1;
    var contents := prefix + [last];
    var items' := items + if IsBad(last, allowed) then [last.value] else [];
    slots' := if IsBad(last, allowed) then slots + [n - 1] else slots;
    assert forall i :: 0 <= i < n - 1 ==> contents[i] == prefix[i];
    forall j | 0 <= j < |slots'|
      ensures 0 <= slots'[j] < n && contents[slots'[j]] == Some(items'[j])
    {
      if j < |slots| {
        assert slots'[j] == slots[j] && items'[j] == items[j];
      }
    }
    forall i | 0 <= i < n
      ensures IsBad(contents[i], allowed) <==> i in slots'
    {
      if i < n - 1 {
        assert IsBad(prefix[i], allowed) <==> i in slots;
      }
    }
  }

  /** Collects the misplaced items slot by slot. */
  method FindBadItems(contents: Contents, allowed: Material) returns (bad: seq<ItemStack>)
    ensures bad == BadItems(contents, allowed)
    ensures forall x :: x in bad ==> x.material != allowed
  {
    bad := [];
    var i := 0;
    while i < |contents|
      invariant 0 <= i <= |contents|
      invariant bad == BadItems(contents[..i], allowed)
    {
      assert contents[..i + 1][..i] == contents[..i];
      if contents[i].Some? && contents[i].value.material != allowed {
        bad := bad + [contents[i].value];
      }
      i := i + 1;
    }
    assert contents[..i] == contents;
    BadItemsSelectsExactly(contents, allowed);
  }

  // ---------------------------------------------------------------------------
  // Pretty names

  /** ASCII case mapping; every other character maps to itself. */
  function LowerChar(c: char): char {
    if 'A' <= c <= 'Z' then (c as int + 32) as char else c
  }

  function UpperChar(c: char): char {
    if 'a' <= c <= 'z' then (c as int - 32) as char else c
  }

  function Lowercase(s: string): string {
    seq(|s|, i requires 0 <= i < |s| => LowerChar(s[i]))
  }

  /** Splits at every separator; `n` separators give `n + 1` parts, empty ones included. */
  function Split(s: string, sep: char): (parts: seq<string>)
    ensures |parts| >= 1
  {
    if |s| == 0 then [""]
    else
      var rest := Split(s[1..], sep);
      if s[0] == sep then [""] + rest else [[s[0]] + rest[0]] + rest[1..]
  }

  /** Joins parts with one separator between neighbours. */
  function Join(parts: seq<string>, sep: char): string
    requires |parts| >= 1
  {
    if |parts| == 1 then parts[0] else parts[0] + [sep] + Join(parts[1..], sep)
  }

  /** Upper-cases the first character of a word. */
  function Capitalize(w: string): string {
    if |w| == 0 then w else [UpperChar(w[0])] + w[1..]
  }

  function CapitalizeAll(ws: seq<string>): seq<string> {
    seq(|ws|, i requires 0 <= i < |ws| => Capitalize(ws[i]))
  }

  /** The expected character at position `i` of the pretty form of `name`. */
  function PrettyChar(name: string, i: int): char
    requires 0 <= i < |name|
  {
    if name[i] == '_' then ' '
    else if i == 0 || name[i - 1] == '_' then UpperChar(LowerChar(name[i]))
    else LowerChar(name[i])
  }

  /** Title case of an enum constant name: lower-case it, split at `_`, upper-case the
      first letter of each word, join with spaces. */
  function ToPrettyString(name: string): (r: string)
    ensures |r| == |name|
    ensures forall i :: 0 <= i < |name| ==> r[i] == PrettyChar(name, i)
  {
    var lower := Lowercase(name);
    var parts := Split(lower, '_');
    var r := Join(CapitalizeAll(parts), ' ');
    PrettyMatchesRender(lower, parts);
    PrettyFromChars(lower, true);
    forall i | 0 <= i < |name|
      ensures r[i] == PrettyChar(name, i)
    {
      assert r[i] == WordChar(lower, true, i);
      assert lower[i] == LowerChar(name[i]);
      assert lower[i] == '_' <==> name[i] == '_';
      if i > 0 {
        assert lower[i - 1] == '_' <==> name[i - 1] == '_';
      }
    }
    r
  }

  /** The pretty form computed character by character; `atStart` says whether the
      first character begins a word. */
  function PrettyFrom(s: string, atStart: bool): string {
    if |s| == 0 then ""
    else if s[0] == '_' then " " + PrettyFrom(s[1..], true)
    else [if atStart then UpperChar(s[0]) else s[0]] + PrettyFrom(s[1..], false)
  }

  /** Joins the parts with only the first one's capitalisation depending on `capFirst`. */
  function Render(parts: seq<string>, capFirst: bool): string
    requires |parts| >= 1
  {
    Join([if capFirst then Capitalize(parts[0]) else parts[0]] + CapitalizeAll(parts[1..]), ' ')
  }

  lemma JoinHeadChar(c: char, w: string, ws: seq<string>, sep: char)
    ensures Join([[c] + w] + ws, sep) == [c] + Join([w] + ws, sep)
  {
    if |ws| > 0 {
      assert ([[c] + w] + ws)[1..] == ws;
      assert ([w] + ws)[1..] == ws;
    }
  }

  /** Rendering the split of `s` is the same as the character-wise pretty form. */
  lemma {:induction false} RenderSplit(s: string, capFirst: bool)
    ensures Render(Split(s, '_'), capFirst) == PrettyFrom(s, capFirst)
  {
    if |s| > 0 {
      var rest := Split(s[1..], '_');
      RenderSplit(s[1..], true);
      RenderSplit(s[1..], false);
      assert CapitalizeAll(rest) == [Capitalize(rest[0])] + CapitalizeAll(rest[1..]);
      if s[0] == '_' {
        var parts := [""] + rest;
        assert parts[1..] == rest;
        assert [if capFirst then Capitalize(parts[0]) else parts[0]] + CapitalizeAll(parts[1..])
          == [""] + CapitalizeAll(rest);
        assert ([""] + CapitalizeAll(rest))[1..] == CapitalizeAll(rest);
      } else {
        var parts := [[s[0]] + rest[0]] + rest[1..];
        assert parts[1..] == rest[1..];
        var c := if capFirst then UpperChar(s[0]) else s[0];
        assert (if capFirst then Capitalize(parts[0]) else parts[0]) == [c] + rest[0];
        JoinHeadChar(c, rest[0], CapitalizeAll(rest[1..]), ' ');
      }
    }
  }

  lemma PrettyMatchesRender(lower: string, parts: seq<string>)
    requires parts == Split(lower, '_')
    ensures Join(CapitalizeAll(parts), ' ') == PrettyFrom(lower, true)
  {
    RenderSplit(lower, true);
    assert CapitalizeAll(parts) == [Capitalize(parts[0])] + CapitalizeAll(parts[1..]);
  }

  /** Character `i` of the pretty form of `s`: `_` becomes a space, a character that
      starts a word is upper-cased, every other character is kept. */
  function WordChar(s: string, atStart: bool, i: int): char
    requires 0 <= i < |s|
  {
    if s[i] == '_' then ' '
    else if (i == 0 && atStart) || (i > 0 && s[i - 1] == '_') then UpperChar(s[i])
    else s[i]
  }

  /** The character-wise pretty form keeps the length, turns `_` into a space and
      upper-cases exactly the word-initial characters. */
  lemma {:induction false} PrettyFromChars(s: string, atStart: bool)
    ensures |PrettyFrom(s, atStart)| == |s|
    ensures forall i :: 0 <= i < |s| ==> PrettyFrom(s, atStart)[i] == WordChar(s, atStart, i)
  {
    if |s| > 0 {
      var tail := PrettyFrom(s[1..], s[0] == '_');
      PrettyFromChars(s[1..], s[0] == '_');
      assert PrettyFrom(s, atStart)[1..] == tail;
      forall i | 0 <= i < |s|
        ensures PrettyFrom(s, atStart)[i] == WordChar(s, atStart, i)
      {
        if i > 0 {
          assert PrettyFrom(s, atStart)[i] == tail[i - 1];
          assert s[1..][i - 1] == s[i];
          if i > 1 {
            assert s[1..][i - 2] == s[i - 1];
          }
        }
      }
    }
  }

  /** The documented examples of the pretty form. */
  lemma PrettyStringDirt()
    ensures ToPrettyString("DIRT") == "Dirt"
  {
  }

  lemma PrettyStringGoldOre()
    ensures ToPrettyString("GOLD_ORE") == "Gold Ore"
  {
    PrettyGoldOreByWords();
    assert "GOLD_ORE" == "GOLD" + "_" + "ORE";
  }

  lemma PrettyGoldOreByWords()
    ensures ToPrettyString("GOLD" + "_" + "ORE") == "Gold Ore"
  {
    PrettyWord("GOLD", "Gold");
    PrettyWord("ORE", "Ore");
    PrettyJoin("GOLD", "ORE");
  }

  /** Pretty names compose word by word: joining two names with `_` joins their pretty
      forms with a space. */
  lemma PrettyJoin(a: string, b: string)
    ensures ToPrettyString(a + "_" + b) == ToPrettyString(a) + " " + ToPrettyString(b)
  {
    var name := a + "_" + b;
    var r := ToPrettyString(name);
    var e := ToPrettyString(a) + " " + ToPrettyString(b);
    forall i | 0 <= i < |name|
      ensures r[i] == e[i]
    {
      if i < |a| {
        assert name[i] == a[i];
        if i > 0 { assert name[i - 1] == a[i - 1]; }
      } else if i > |a| {
        var j := i - |a| - 1;
        assert name[i] == b[j];
        if j > 0 { assert name[i - 1] == b[j - 1]; }
      }
    }
    assert r == e;
  }

  lemma PrettyStringDeepslateCopperOre()
    ensures ToPrettyString("DEEPSLATE_COPPER_ORE") == "Deepslate Copper Ore"
  {
    PrettyDeepslateCopperOreByWords();
    assert "DEEPSLATE_COPPER_ORE" == "DEEPSLATE" + "_" + ("COPPER" + "_" + "ORE");
  }

  /** The same example assembled from its three words. */
  lemma PrettyDeepslateCopperOreByWords()
    ensures ToPrettyString("DEEPSLATE" + "_" + ("COPPER" + "_" + "ORE")) == "Deepslate Copper Ore"
  {
    PrettyDeepslateWord();
    PrettyCopperOreByWords();
    PrettyJoin("DEEPSLATE", "COPPER" + "_" + "ORE");
  }

  lemma PrettyDeepslateWord()
    ensures ToPrettyString("DEEPSLATE") == "Deepslate"
  {
    PrettyWord("DEEPSLATE", "Deepslate");
  }

  lemma PrettyCopperOreByWords()
    ensures ToPrettyString("COPPER" + "_" + "ORE") == "Copper Ore"
  {
    PrettyWord("COPPER", "Copper");
    PrettyWord("ORE", "Ore");
    PrettyJoin("COPPER", "ORE");
  }

  /** The pretty form of one upper-case word: its first letter stays, the rest goes lower case. */
  lemma PrettyWord(w: string, expected: string)
    requires |w| == |expected| > 0
    requires expected[0] == w[0] && 'A' <= w[0] <= 'Z'
    requires forall i :: 1 <= i < |w| ==> 'A' <= w[i] <= 'Z' && expected[i] == LowerChar(w[i])
    ensures ToPrettyString(w) == expected
  {
    var r := ToPrettyString(w);
    forall i | 0 <= i < |w|
      ensures r[i] == expected[i]
    {
    }
  }
}

=== FILE: hoe_type.dfy ===
/** The registration tools: which tool an item is, and what using it on a chest does
    to the registry. */
module HoeTypes {
  import opened Domain
  import opened Persistence

  /** The tool variants, in declaration order. */
  datatype HoeType = Debug | Sender | Receiver

  /** The tool constants kept with the plugin's other utilities: the materials of the
      sender and receiver tools, their enchantments and their serialized display names. */
  datatype ToolConfig = ToolConfig(
    senderMaterial: Material,
    receiverMaterial: Material,
    senderEnchantment: string,
    receiverEnchantment: string,
    senderHoeName: string,
    receiverHoeName: string)

  /** The debug tool is a plain diamond hoe. */
  const DiamondHoe := Material("DIAMOND_HOE", 1)

  function MaterialOf(t: HoeType, cfg: ToolConfig): Material {
    match t
    case Debug => DiamondHoe
    case Sender => cfg.senderMaterial
    case Receiver => cfg.receiverMaterial
  }

  /** The first variant, in declaration order, made of material `m`. */
  function VariantFor(cfg: ToolConfig, m: Material): (r: Option<HoeType>)
    ensures r.Some? ==> MaterialOf(r.value, cfg) == m
    ensures r.None? <==> forall t :: MaterialOf(t, cfg) != m
    ensures r.Some? ==> forall t :: MaterialOf(t, cfg) == m ==> Rank(r.value) <= Rank(t)
  {
    if DiamondHoe == m then Some(Debug)
    else if cfg.senderMaterial == m then Some(Sender)
    else if cfg.receiverMaterial == m then Some(Receiver)
    else None
  }

  /** Declaration position of a variant. */
  function Rank(t: HoeType): nat {
    match t
    case Debug => 0
    case Sender => 1
    case Receiver => 2
  }

  /** The item carries the tool's enchantment and exactly the tool's display name. */
  predicate Authentic(meta: ItemMeta, enchantment: string, name: string) {
    enchantment in meta.enchantments && meta.displayName == Some(name)
  }

  /** Identifies the tool an item is: first by material, then, for the sender and
      receiver tools, by enchantment and display name. */
  function Find(cfg: ToolConfig, item: ItemStack): (r: Option<HoeType>)
    ensures r.Some? ==> item.meta.Some? && item.material == MaterialOf(r.value, cfg)
    ensures item.meta.None? ==> r.None?
    ensures (forall t :: MaterialOf(t, cfg) != item.material) ==> r.None?
    ensures r == Some(Debug) <==> item.material == DiamondHoe && item.meta.Some?
    ensures r == Some(Sender) <==>
      && item.material == cfg.senderMaterial && item.material != DiamondHoe
      && item.meta.Some? && Authentic(item.meta.value, cfg.senderEnchantment, cfg.senderHoeName)
    ensures r == Some(Receiver) <==>
      && item.material == cfg.receiverMaterial
      && item.material != DiamondHoe && item.material != cfg.senderMaterial
      && item.meta.Some? && Authentic(item.meta.value, cfg.receiverEnchantment, cfg.receiverHoeName)
  {
    match VariantFor(cfg, item.material)
    case None => None
    case Some(t) =>
      if item.meta.None? then None
      else
        var meta := item.meta.value;
        match t
        case Sender =>
          if Authentic(meta, cfg.senderEnchantment, cfg.senderHoeName) then Some(Sender) else None
        case Receiver =>
          if Authentic(meta, cfg.receiverEnchantment, cfg.receiverHoeName) then Some(Receiver) else None
        case Debug => Some(Debug)
  }

  /** The clicked block resolves to a container. */
  predicate Resolves(world: World, clicked: Option<Location>) {
    clicked.Some? && world.resolve(clicked.value).Some?
  }

  /** The clicked block resolves to a container that holds no role yet. */
  predicate Registrable(world: World, cache: LocationCache, clicked: Option<Location>) {
    Resolves(world, clicked) && !IsRegisteredChestLocation(cache, clicked.value)
  }

  /** The registry after a tool use and the reply to the player, if any. */
  datatype ActResult = ActResult(cache: LocationCache, reply: Option<Message>)

  /** Using tool `t` on the clicked block. `debugPlayer` says whether the player's
      display name contains the debug marker. A chest is only ever registered when it
      resolves to a container and holds no role yet. */
  function Act(t: HoeType, world: World, cache: LocationCache, clicked: Option<Location>, debugPlayer: bool): (r: ActResult)
    ensures t == Debug ==> r.cache == cache
    ensures r.cache != cache ==> Registrable(world, cache, clicked)
    ensures t != Debug && Resolves(world, clicked) && IsRegisteredChestLocation(cache, clicked.value) ==>
      r == ActResult(cache, Some(AlreadyRegistered))
    // a sender: exactly the clicked location joins the senders
    ensures t == Sender && Registrable(world, cache, clicked) ==>
      && r.cache.senderLocations == cache.senderLocations + {clicked.value}
      && r.cache.receiverChests == cache.receiverChests
      && r.cache.cachedChestLocations == cache.cachedChestLocations
    // a receiver: nothing unless the frame holds an item, then the location joins that material
    ensures t == Receiver && clicked.Some? && !world.findItemFrame(clicked.value).Found? ==>
      r.cache == cache
    ensures t == Receiver && Registrable(world, cache, clicked) && world.findItemFrame(clicked.value).Found? ==>
      var m := world.findItemFrame(clicked.value).item;
      && r.cache.Valid()
      && r.cache.senderLocations == cache.senderLocations
      && (forall k, x :: IsReceiverOf(r.cache.receiverChests, k, x) <==>
            IsReceiverOf(cache.receiverChests, k, x) || (k == m && x == clicked.value))
  {
    match t
    case Debug =>
      if debugPlayer && clicked.Some? then ActResult(cache, Some(DebugLocation(clicked.value)))
      else ActResult(cache, None)
    case Sender =>
      if clicked.None? || world.resolve(clicked.value).None? then ActResult(cache, None)
      else
        var l := clicked.value;
        if IsRegisteredChestLocation(cache, l) then ActResult(cache, Some(AlreadyRegistered))
        else ActResult(AddSenderLocation(cache, l).cache, Some(SavingSender(l)))
    case Receiver =>
      if clicked.None? || world.resolve(clicked.value).None? then ActResult(cache, None)
      else
        var l := clicked.value;
        if IsRegisteredChestLocation(cache, l) then ActResult(cache, Some(AlreadyRegistered))
        else
          match world.findItemFrame(l)
          case NoFrame => ActResult(cache, Some(CouldNotFindFrame))
          case NoItem => ActResult(cache, Some(FrameHasNoItem))
          case Found(m) =>
            var u := AddReceiverLocation(cache, m, l);
            assert forall k, x :: k != m ==> (IsReceiverOf(u.cache.receiverChests, k, x) <==> IsReceiverOf(cache.receiverChests, k, x));
            ActResult(u.cache, Some(SavedReceiver(m)))
  }

  /** Because the tools refuse registered chests, using them keeps every location in at
      most one role and keeps the derived receiver set consistent. */
  lemma ActPreservesExclusive(t: HoeType, world: World, cache: LocationCache, clicked: Option<Location>, debugPlayer: bool)
    requires cache.Valid() && Exclusive(cache)
    ensures Act(t, world, cache, clicked, debugPlayer).cache.Valid()
    ensures Exclusive(Act(t, world, cache, clicked, debugPlayer).cache)
  {
    var r := Act(t, world, cache, clicked, debugPlayer);
    if r.cache != cache {
      var l := clicked.value;
      assert l !in cache.senderLocations && l !in Flatten(cache.receiverChests);
      if t == Receiver {
        var m := world.findItemFrame(l).item;
        forall k1, k2, x | IsReceiverOf(r.cache.receiverChests, k1, x) && IsReceiverOf(r.cache.receiverChests, k2, x)
          ensures k1 == k2
        {
          if x == l {
            assert !IsReceiverOf(cache.receiverChests, k1, x) && !IsReceiverOf(cache.receiverChests, k2, x);
          }
        }
        forall x | x in r.cache.senderLocations
          ensures x !in Flatten(r.cache.receiverChests)
        {
        }
      }
    }
  }
}

=== FILE: persistence.dfy ===
/** The location registry: which chests are senders, which are receivers and for
    which material, and the flattened receiver set kept for fast membership tests. */
module Persistence {
  import opened Domain

  /** One persisted receiver entry: a material and the chests that collect it. */
  datatype MaterialLocation = MaterialLocation(material: Material, receivers: seq<Location>)

  /** Receiver chests grouped by the material they collect. */
  type ReceiverMap = map<Material, set<Location>>

  /** Every location that lies in some receiver set of `m`. */
  function Flatten(m: ReceiverMap): (r: set<Location>)
    ensures forall l :: l in r <==> exists k :: IsReceiverOf(m, k, l)
  {
    var r := set k, l | k in m && l in m[k] :: l;
    assert forall l :: l in r <==> exists k :: IsReceiverOf(m, k, l) by {
      forall l
        ensures l in r <==> exists k :: IsReceiverOf(m, k, l)
      {
        if exists k :: IsReceiverOf(m, k, l) {
          var k :| IsReceiverOf(m, k, l);
          assert k in m && l in m[k];
        }
        if l in r {
          var k :| k in m && l in m[k];
          assert IsReceiverOf(m, k, l);
        }
      }
    }
    r
  }

  /** The registry state. `cachedChestLocations` is derived from `receiverChests`. */
  datatype LocationCache = LocationCache(
    receiverChests: ReceiverMap,
    senderLocations: set<Location>,
    cachedChestLocations: set<Location>)
  {
    /** The derived receiver set agrees with the receiver map. */
    predicate Valid() {
      cachedChestLocations == Flatten(receiverChests)
    }

    /** No material is kept with an empty receiver set. */
    predicate NoEmptyEntries() {
      forall k :: k in receiverChests ==> receiverChests[k] != {}
    }
  }

  /** `l` is registered in `m` as a receiver for material `k`. */
  predicate IsReceiverOf(m: ReceiverMap, k: Material, l: Location) {
    k in m && l in m[k]
  }

  /** Every location holds at most one role: no sender is also a receiver and no
      receiver collects two materials. The registry does not enforce this itself;
      the registration tools do, by refusing registered chests. */
  ghost predicate Exclusive(c: LocationCache) {
    && c.senderLocations !! Flatten(c.receiverChests)
    && forall k1, k2, l :: IsReceiverOf(c.receiverChests, k1, l) && IsReceiverOf(c.receiverChests, k2, l) ==> k1 == k2
  }

  /** The result of a registry mutation: the new registry and whether anything changed. */
  datatype Update = Update(cache: LocationCache, changed: bool)

  /** Whether entry `i` is the last entry for its material. */
  predicate LastFor(data: seq<MaterialLocation>, i: int)
    requires 0 <= i < |data|
  {
    forall j :: i < j < |data| ==> data[j].material != data[i].material
  }

  /** Builds the receiver map from persisted entries; a material listed twice keeps
      the locations of its last entry. */
  function Associate(data: seq<MaterialLocation>): ReceiverMap
  {
    if |data| == 0 then map[]
    else
      var last := data[|data| - 1];
      Associate(data[..|data| - 1])[last.material := Elems(last.receivers)]
  }

  /** A material has an entry exactly when some persisted entry names it, and the
      entry holds the locations of the last such persisted entry. */
  lemma {:induction false} AssociateLastWins(data: seq<MaterialLocation>)
    ensures forall k :: k in Associate(data) <==> exists i :: 0 <= i < |data| && data[i].material == k
    ensures forall i :: 0 <= i < |data| && LastFor(data, i) ==>
      Associate(data)[data[i].material] == Elems(data[i].receivers)
  {
    if |data| > 0 {
      var n := |data|;
      var last := data[n - 1];
      var prefix := data[..n - 1];
      AssociateLastWins(prefix);
      assert Associate(data) == Associate(prefix)[last.material := Elems(last.receivers)];
      forall k
        ensures k in Associate(data) <==> exists i :: 0 <= i < n && data[i].material == k
      {
        if exists i :: 0 <= i < n - 1 && prefix[i].material == k {
          var i :| 0 <= i < n - 1 && prefix[i].material == k;
          assert data[i].material == k;
        }
        if exists i :: 0 <= i < n && data[i].material == k {
          var i :| 0 <= i < n && data[i].material == k;
          if i < n - 1 {
            assert prefix[i].material == k;
          }
        }
      }
      forall i | 0 <= i < n && LastFor(data, i)
        ensures Associate(data)[data[i].material] == Elems(data[i].receivers)
      {
        if i < n - 1 {
          assert data[i].material != last.material;
          assert LastFor(prefix, i);
        }
      }
    }
  }

  /** The registry built from the two persisted collections. */
  function Create(receivers: seq<MaterialLocation>, senders: seq<Location>): (c: LocationCache)
    ensures c.Valid()
    ensures c.senderLocations == Elems(senders)
    ensures forall k, l :: IsReceiverOf(c.receiverChests, k, l) <==>
      exists i :: 0 <= i < |receivers| && LastFor(receivers, i)
        && receivers[i].material == k && l in receivers[i].receivers
  {
    var m := Associate(receivers);
    AssociateLastWins(receivers);
    assert forall k :: k in m ==> receivers[LastIndexOf(receivers, k)].material == k;
    LocationCache(m, Elems(senders), Flatten(m))
  }

  /** The index of the last entry for material `k`, which exists when `k` is listed. */
  function LastIndexOf(data: seq<MaterialLocation>, k: Material): (i: int)
    requires exists i :: 0 <= i < |data| && data[i].material == k
    ensures 0 <= i < |data| && data[i].material == k && LastFor(data, i)
  {
    var prefix := data[..|data| - 1];
    if data[|data| - 1].material == k then |data| - 1
    else
      assert forall i :: 0 <= i < |prefix| ==> prefix[i] == data[i];
      LastIndexOf(prefix, k)
  }

  /** Loading from the two files: a file that does not exist reads as an empty collection. */
  function FromFiles(receiverFile: Option<seq<MaterialLocation>>, senderFile: Option<seq<Location>>): (c: LocationCache)
    ensures c.Valid()
    ensures receiverFile.None? ==> c.receiverChests == map[]
    ensures senderFile.None? ==> c.senderLocations == {}
    ensures senderFile.Some? ==> c.senderLocations == Elems(senderFile.value)
    ensures receiverFile.Some? ==> c.receiverChests == Associate(receiverFile.value)
  {
    var receivers := if receiverFile.Some? then receiverFile.value else [];
    var senders := if senderFile.Some? then senderFile.value else [];
    Create(receivers, senders)
  }

  /** The receiver set for a material, absent when the material has no entry. */
  function ReceiverLocationsFor(c: LocationCache, material: Material): (r: Option<set<Location>>)
    ensures r.Some? <==> material in c.receiverChests
    // the answer lists exactly the receivers registered for the material
    ensures r.Some? ==> forall l :: l in r.value <==> IsReceiverOf(c.receiverChests, material, l)
    ensures c.NoEmptyEntries() && r.Some? ==> r.value != {}
  {
    if material in c.receiverChests then Some(c.receiverChests[material]) else None
  }

  /** Sender membership; in a registry whose roles are exclusive a sender is no receiver. */
  predicate IsSenderChestLocation(c: LocationCache, l: Location)
    ensures IsSenderChestLocation(c, l) && Exclusive(c) ==> forall k :: !IsReceiverOf(c.receiverChests, k, l)
  {
    l in c.senderLocations
  }

  /** Receiver membership, answered from the derived set. */
  predicate IsReceiverChestLocation(c: LocationCache, l: Location)
    ensures c.Valid() ==>
      (IsReceiverChestLocation(c, l) <==> exists k :: IsReceiverOf(c.receiverChests, k, l))
  {
    l in c.cachedChestLocations
  }

  /** Registration, answered from the sender set and the derived receiver set. */
  predicate IsRegisteredChestLocation(c: LocationCache, l: Location)
    ensures c.Valid() ==>
      (IsRegisteredChestLocation(c, l) <==> l in c.senderLocations || exists k :: IsReceiverOf(c.receiverChests, k, l))
  {
    IsSenderChestLocation(c, l) || l in c.cachedChestLocations
  }

  /** Unregisters a location. The sender set is tried first; only when the location is
      not a sender is it taken out of the receiver sets, and then every emptied entry is
      dropped and the derived set recomputed. */
  function RemoveLocation(c: LocationCache, l: Location): (u: Update)
    // a sender: only the sender role goes, receiver state is left exactly as it was
    ensures l in c.senderLocations ==>
      && u.changed
      && u.cache.senderLocations == c.senderLocations - {l}
      && u.cache.receiverChests == c.receiverChests
      && u.cache.cachedChestLocations == c.cachedChestLocations
    // a receiver only: it leaves every receiver set, the others stay, no empty entry remains
    ensures l !in c.senderLocations && (exists k :: IsReceiverOf(c.receiverChests, k, l)) ==>
      && u.changed
      && u.cache.Valid()
      && u.cache.NoEmptyEntries()
      && u.cache.senderLocations == c.senderLocations
      && (forall k :: !IsReceiverOf(u.cache.receiverChests, k, l))
      && (forall k, x :: x != l ==> (IsReceiverOf(u.cache.receiverChests, k, x) <==> IsReceiverOf(c.receiverChests, k, x)))
    // neither: nothing happens
    ensures l !in c.senderLocations && (forall k :: !IsReceiverOf(c.receiverChests, k, l)) ==>
      u == Update(c, false)
  {
    if l in c.senderLocations then
      Update(c.(senderLocations := c.senderLocations - {l}), true)
    else if l in Flatten(c.receiverChests) then
      var m := map k | k in c.receiverChests && c.receiverChests[k] - {l} != {} :: c.receiverChests[k] - {l};
      assert forall k, x :: x != l ==> (IsReceiverOf(m, k, x) <==> IsReceiverOf(c.receiverChests, k, x)) by {
        forall k, x | x != l
          ensures IsReceiverOf(m, k, x) <==> IsReceiverOf(c.receiverChests, k, x)
        {
          if IsReceiverOf(c.receiverChests, k, x) {
            assert x in c.receiverChests[k] - {l};
          }
        }
      }
      Update(LocationCache(m, c.senderLocations, Flatten(m)), true)
    else
      Update(c, false)
  }

  /** Registers `l` as a receiver for `material`, creating the entry if needed. No role
      check is made here. */
  function AddReceiverLocation(c: LocationCache, material: Material, l: Location): (u: Update)
    ensures u.changed <==> !IsReceiverOf(c.receiverChests, material, l)
    ensures u.cache.Valid()
    ensures u.cache.senderLocations == c.senderLocations
    ensures forall x :: IsReceiverOf(u.cache.receiverChests, material, x) <==> x == l || IsReceiverOf(c.receiverChests, material, x)
    ensures forall k :: k != material ==>
      (k in u.cache.receiverChests <==> k in c.receiverChests)
      && (k in c.receiverChests ==> u.cache.receiverChests[k] == c.receiverChests[k])
  {
    var existing := if material in c.receiverChests then c.receiverChests[material] else {};
    var m := c.receiverChests[material := existing + {l}];
    Update(LocationCache(m, c.senderLocations, Flatten(m)), l !in existing)
  }

  /** Registers `l` as a sender. Receiver state is never touched. */
  function AddSenderLocation(c: LocationCache, l: Location): (u: Update)
    ensures u.changed <==> l !in c.senderLocations
    ensures l in u.cache.senderLocations
    ensures forall x :: x != l ==> (x in u.cache.senderLocations <==> x in c.senderLocations)
    ensures u.cache.receiverChests == c.receiverChests
    ensures u.cache.cachedChestLocations == c.cachedChestLocations
  {
    Update(c.(senderLocations := c.senderLocations + {l}), l !in c.senderLocations)
  }

  /** The receiver map as persisted entries, one per material, each location once. */
  method ChestLocationsToReceiverChests(c: LocationCache) returns (data: seq<MaterialLocation>)
    ensures forall i :: 0 <= i < |data| ==>
      data[i].material in c.receiverChests && Elems(data[i].receivers) == c.receiverChests[data[i].material]
    ensures Associate(data) == c.receiverChests
    ensures forall i, j :: 0 <= i < j < |data| ==> data[i].material != data[j].material
    ensures forall i :: 0 <= i < |data| ==> Distinct(data[i].receivers)
  {
    data := [];
    var todo := c.receiverChests.Keys;
    while todo != {}
      invariant todo <= c.receiverChests.Keys
      invariant Associate(data) == map k | k in c.receiverChests && k !in todo :: c.receiverChests[k]
      invariant forall i :: 0 <= i < |data| ==> data[i].material !in todo
      invariant forall i :: 0 <= i < |data| ==>
        data[i].material in c.receiverChests && Elems(data[i].receivers) == c.receiverChests[data[i].material]
      invariant forall i, j :: 0 <= i < j < |data| ==> data[i].material != data[j].material
      invariant forall i :: 0 <= i < |data| ==> Distinct(data[i].receivers)
      decreases todo
    {
      var k :| k in todo;
      var locations := Enumerate(c.receiverChests[k]);
      var next := data + [MaterialLocation(k, locations)];
      assert next[..|data|] == data;
      data := next;
      todo := todo - {k};
    }
  }

  /** After removal a location is no longer registered, unless it held both roles:
      then only its sender role goes. */
  lemma RemoveUnregisters(c: LocationCache, l: Location)
    requires c.Valid()
    ensures var u := RemoveLocation(c, l);
      !IsRegisteredChestLocation(u.cache, l) <==> !(l in c.senderLocations && l in c.cachedChestLocations)
  {
  }

  /** Removal keeps the derived set consistent and never creates a second role. */
  lemma RemovePreservesInvariants(c: LocationCache, l: Location)
    requires c.Valid()
    ensures RemoveLocation(c, l).cache.Valid()
    ensures c.NoEmptyEntries() ==> RemoveLocation(c, l).cache.NoEmptyEntries()
    ensures Exclusive(c) ==> Exclusive(RemoveLocation(c, l).cache)
  {
  }

  /** Removal never leaves an empty entry behind, whether or not the derived set is
      consistent: a receiver removal drops every emptied entry. */
  lemma RemoveKeepsNoEmptyEntries(c: LocationCache, l: Location)
    ensures c.NoEmptyEntries() ==> RemoveLocation(c, l).cache.NoEmptyEntries()
  {
  }

  /** Registering an unregistered chest as a receiver and removing it again gives back
      the registry it started from, provided no empty entry was lying around. */
  lemma {:induction false} AddThenRemoveReceiver(c: LocationCache, material: Material, l: Location)
    requires c.Valid() && c.NoEmptyEntries()
    requires !IsRegisteredChestLocation(c, l)
    ensures AddReceiverLocation(c, material, l).changed
    ensures RemoveLocation(AddReceiverLocation(c, material, l).cache, l) == Update(c, true)
  {
    var m := c.receiverChests;
    var u1 := AddReceiverLocation(c, material, l);
    var u2 := RemoveLocation(u1.cache, l);
    var m2 := u2.cache.receiverChests;
    assert IsReceiverOf(u1.cache.receiverChests, material, l);
    forall j, x
      ensures IsReceiverOf(m2, j, x) <==> IsReceiverOf(m, j, x)
    {
      if x != l {
        assert IsReceiverOf(u1.cache.receiverChests, j, x) <==> IsReceiverOf(m, j, x);
      } else {
        assert !IsReceiverOf(m, j, x);
      }
    }
    forall j | j in m
      ensures j in m2 && m2[j] == m[j]
    {
      var x :| x in m[j];
      assert IsReceiverOf(m2, j, x);
      assert forall y :: y in m2[j] <==> IsReceiverOf(m, j, y);
    }
    forall j | j in m2
      ensures j in m
    {
      var x :| x in m2[j];
      assert IsReceiverOf(m, j, x);
    }
    assert m2 == m;
  }

  /** Removing one of two receivers of a material keeps the entry with the other. */
  lemma RemoveKeepsSiblingReceiver(material: Material, l1: Location, l2: Location)
    requires l1 != l2
    ensures var u := RemoveLocation(Create([MaterialLocation(material, [l1, l2])], []), l1);
      && u.changed
      && ReceiverLocationsFor(u.cache, material) == Some({l2})
      && !IsReceiverChestLocation(u.cache, l1)
      && IsReceiverChestLocation(u.cache, l2)
  {
    var data := [MaterialLocation(material, [l1, l2])];
    var c := Create(data, []);
    assert LastFor(data, 0);
    assert IsReceiverOf(c.receiverChests, material, l1) && IsReceiverOf(c.receiverChests, material, l2);
    var u := RemoveLocation(c, l1);
    assert IsReceiverOf(u.cache.receiverChests, material, l2);
    forall x | x in u.cache.receiverChests[material]
      ensures x == l2
    {
      assert IsReceiverOf(c.receiverChests, material, x);
      assert x in Elems([l1, l2]);
    }
    assert u.cache.receiverChests[material] == {l2};
  }

  /** Removing the only receiver of a material drops the material's entry. */
  lemma RemoveLastReceiverDropsEntry(material: Material, l: Location)
    ensures var u := RemoveLocation(Create([MaterialLocation(material, [l])], []), l);
      u.changed && ReceiverLocationsFor(u.cache, material) == None
  {
    var data := [MaterialLocation(material, [l])];
    var c := Create(data, []);
    assert LastFor(data, 0);
    assert IsReceiverOf(c.receiverChests, material, l);
    var u := RemoveLocation(c, l);
  }

  /** Registering a new sender and removing it again gives back the registry. */
  lemma AddThenRemoveSender(c: LocationCache, l: Location)
    requires l !in c.senderLocations
    ensures RemoveLocation(AddSenderLocation(c, l).cache, l) == Update(c, true)
  {
    assert c.senderLocations + {l} - {l} == c.senderLocations;
  }
}
